=== FILE: README.md ===
# Decision-tree builder (CART with Gini impurity)

This project models the binary decision-tree learner in
`MachineLearningTechniques/hw3/decision_tree.py` and proves properties of it
in Dafny.

The learner takes a feature matrix `X`, with one row of `D` real features per
example, and a label vector `Y`. It builds a tree recursively:

- A node whose labels all agree becomes a leaf holding the set of those
  labels.
- A node whose rows `all_same_rows` calls identical becomes a leaf holding
  the majority label (`majority_item`).
- Any other node splits on the feature and threshold chosen by
  `decide_branch`.

The split search works like this:

- It walks the features in order. For each one it sorts the rows by that
  feature.
- It scores every cut between neighbouring sorted rows by the size-weighted
  Gini impurity of the two sides: `(i+1)·gini(left) + (N−i−1)·gini(right)`.
- It keeps the first cut whose cost is strictly below the best seen so far.
  The search starts from the cost of not splitting, `N·gini(Y)`, with
  threshold `-inf`.
- The threshold it returns is the midpoint of the two sorted values around
  the chosen cut.

The children are built from the rows strictly below the threshold
(`datas_below`) and strictly above it (`datas_above`). A call that receives
no rows fails the assertion at the top of `build_dt`.

Modules:

- `Labels` (labels.dfy): counts, distinct labels in order of first
  appearance, Gini impurity, the weighted impurity and the majority vote.
- `Sorting` (sorting.dfy): the `argsort` of a feature column.
- `Datasets` (dataset.dfy): the data and the `-inf`/finite threshold.
- `Partition` (partition.dfy): `datas_below` and `datas_above`.
- `Scan` (scan.dfy): the two nested loops of the search, over a table of
  scored cuts, with the running-minimum invariant.
- `Split` (split.dfy): `decide_branch` itself. It has a functional
  definition (`BestSplit`) and the loop version (`DecideBranch`), which is
  proved equal to it.
- `DecisionTree` (tree.dfy): `DT_Node`, `all_same_rows` and `build_dt`.
- `Findings` (findings.dfy): the defects listed under "## Findings", each
  with a worked example.
- `Scenarios` (scenarios.dfy): an ordinary run of the builder on four
  rows, worked out to the exact tree.

Every operation that the defects touch takes a `Variant` argument:

- `AsWritten` follows the code line by line.
- `Corrected` repairs the two defects.

A model built with `Corrected` is the repaired reading. The properties
about training data (`FitsTrainingData`) are proved for it.

## Model

| member | source | states |
|---|---|---|
| `Labels.Count` | MachineLearningTechniques/hw3/decision_tree.py:44 | A label's count is at most the list length. It is positive exactly when the label occurs. |
| `Labels.Distinct` | MachineLearningTechniques/hw3/decision_tree.py:44 | The distinct labels of `set(Y)`: exactly the labels occurring in `Y`, each listed once. |
| `Labels.DistinctFirstAppearance` | MachineLearningTechniques/hw3/decision_tree.py:35 | Distinct labels are listed in order of first appearance, the order `Counter` iterates in. |
| `Labels.DistinctSingletonIffPure` | MachineLearningTechniques/hw3/decision_tree.py:107 | `len(set(Y)) == 1` holds exactly when `Y` is non-empty and all its labels are equal. |
| `Labels.Gini` | MachineLearningTechniques/hw3/decision_tree.py:40-46 | The impurity is at most 1. It equals 1 exactly when the list is empty, where the sum has no terms. |
| `Labels.GiniBounds` | MachineLearningTechniques/hw3/decision_tree.py:40-46 | For non-empty labels the impurity lies in [0, 1). It is 0 exactly when all labels are equal. |
| `Labels.WeightedGini` | MachineLearningTechniques/hw3/decision_tree.py:69-70 | The size-weighted impurity of a side is 0 for no labels and lies in [0, N) otherwise. It is 0 exactly when the side is pure. |
| `Labels.WeightedGiniScales` | MachineLearningTechniques/hw3/decision_tree.py:54 | The weighted impurity equals `N · gini_index(Y)`, the quantity the code compares. |
| `Labels.MajorityItem` | MachineLearningTechniques/hw3/decision_tree.py:33-37 | The majority is a label of `Y` whose count is at least every label's count. Among tied labels it is the one that appears first. |
| `Sorting.SortedOrder` | MachineLearningTechniques/hw3/decision_tree.py:61 | The argsort lists every row index exactly once, ascending by key, with ties in row order. |
| `Sorting.SortedOrderIsPermutation` | MachineLearningTechniques/hw3/decision_tree.py:61 | No row appears twice in the sorted order. |
| `Split.SortedValues` | MachineLearningTechniques/hw3/decision_tree.py:61-62 | The sorted column holds each row's feature value, in the argsort order, ascending. |
| `Split.SortedRowsPermute` | MachineLearningTechniques/hw3/decision_tree.py:61-63 | The sorted labels and the sorted column are rearrangements of `Y` and of `X[:, d]`: the same entries, each as often. |
| `Split.PresortedColumn` | MachineLearningTechniques/hw3/decision_tree.py:61-63 | A column already in ascending order is left in place by the sort, and so are the labels. |
| `Sorting.GatherSortedIsPermutation` | MachineLearningTechniques/hw3/decision_tree.py:61-63 | Any sequence indexed by the argsort, as `X[sortidx]` and `Y[sortidx]` are, holds the same multiset of entries. |
| `Sorting.SortedOrderOfSorted` | MachineLearningTechniques/hw3/decision_tree.py:61 | The argsort of ascending keys is the identity order `0, 1, …, N-1`. |
| `Split.Baseline` | MachineLearningTechniques/hw3/decision_tree.py:54 | The starting `min_err` is `N · gini_index(Y)`. |
| `Split.CutThreshold` | MachineLearningTechniques/hw3/decision_tree.py:74 | The threshold lies between the two sorted values around the cut. It equals either of them exactly when the two are equal. |
| `Split.CutCost` | MachineLearningTechniques/hw3/decision_tree.py:69-70 | A cut's cost lies in [0, N). It is 0 exactly when both sorted slices are pure. |
| `Split.BestSplit` | MachineLearningTechniques/hw3/decision_tree.py:49-76 | The result is `-inf` exactly when no scored cut beats `N·gini(Y)`, and then the axis is 0. Otherwise it is a scored cut of minimum cost, strictly cheaper than every earlier scored cut. Its threshold is the midpoint of that cut's neighbouring sorted values, within the column's range. The axis is below `D` when `D > 0`. |
| `Split.DecideBranch` | MachineLearningTechniques/hw3/decision_tree.py:49-76 | The two loops return the axis and threshold of `BestSplit`: `-inf` exactly when nothing improved on not splitting, and an axis below `D`. |
| `Split.ScoreAxis` | MachineLearningTechniques/hw3/decision_tree.py:66-74 | From a state holding the running-minimum invariant for the earlier features, the inner loop ends holding it for every cut of feature `d` as well: the kept cost is at most every scored cut so far, and the kept cut is scored, costs that much, and is strictly cheaper than every scored cut before it. The best cost never rises. |
| `Split.ScoreCutKeepsInv` | MachineLearningTechniques/hw3/decision_tree.py:69-74 | One turn of the inner loop keeps the running-minimum invariant, extended over the cut it scores. |
| `Split.FirstMinimumChosen` | MachineLearningTechniques/hw3/decision_tree.py:71-74 | A scored cut cheaper than not splitting, no dearer than any scored cut and strictly cheaper than every earlier one is the one returned, with its cost and midpoint. |
| `Split.OnlyCandidateChosen` | MachineLearningTechniques/hw3/decision_tree.py:71-74 | A sole scored cut that beats not splitting is the one returned, with its cost and midpoint. |
| `Split.FreeFirstCutChosen` | MachineLearningTechniques/hw3/decision_tree.py:71-74 | A first cut of cost 0 under mixed labels is kept, because no later cut is strictly cheaper. |
| `Scan.ScanInvUnique` | MachineLearningTechniques/hw3/decision_tree.py:53-74 | Two end states that both hold the running-minimum invariant over every cut are equal: the result of the search is determined by the scored cuts. |
| `Scan.ScanFindsFirstMinimum` | MachineLearningTechniques/hw3/decision_tree.py:53-74 | The running minimum never exceeds the starting cost. It ends at `-inf` exactly when no scored cut is strictly cheaper than the start. Otherwise it ends at the first scored cut of minimum cost. |
| `Partition.DatasBelow` | MachineLearningTechniques/hw3/decision_tree.py:85-87 | The lower side holds exactly the rows whose feature is strictly below the threshold. Rows keep their original order and their own labels. |
| `Partition.DatasAbove` | MachineLearningTechniques/hw3/decision_tree.py:79-82 | The upper side holds exactly the rows whose feature is strictly above the threshold. Rows keep their original order and their own labels. |
| `Partition.RowKeptBelow` | MachineLearningTechniques/hw3/decision_tree.py:85-87 | A row strictly below the threshold appears on the lower side with its own features and label. |
| `Partition.RowKeptAbove` | MachineLearningTechniques/hw3/decision_tree.py:79-82 | A row strictly above the threshold appears on the upper side with its own features and label. |
| `Partition.PartitionCounts` | MachineLearningTechniques/hw3/decision_tree.py:81-86 | The two sides are disjoint. Below, above and on-threshold rows add up to all rows. |
| `Partition.StrictThresholdSplits` | MachineLearningTechniques/hw3/decision_tree.py:81-86 | A threshold strictly between two values of the column leaves both sides non-empty and smaller than the data. |
| `Partition.NothingBelowNegInf` | MachineLearningTechniques/hw3/decision_tree.py:86 | No row is below `-inf`. |
| `DecisionTree.AllSameRows` | MachineLearningTechniques/hw3/decision_tree.py:90-95 | As written, the result is true exactly when there are no features, because `set(...) == 1` never holds. Corrected, it is true exactly when every row agrees with the first on every feature. |
| `DecisionTree.Build` | MachineLearningTechniques/hw3/decision_tree.py:98-126 | Building from no rows fails. A built tree has fewer levels than rows, at most one leaf per row, and only finite splits on existing features. As written, with at least one feature, no leaf is a majority leaf. |
| `DecisionTree.SplitNode` | MachineLearningTechniques/hw3/decision_tree.py:119-126 | The splitting branch keeps the same height, leaf-count and split bounds as the whole build. |
| `DecisionTree.BuildPureLeaf` | MachineLearningTechniques/hw3/decision_tree.py:107-110 | Non-empty labels that all agree give a leaf holding the singleton set of that label. |
| `DecisionTree.BuildMajorityLeaf` | MachineLearningTechniques/hw3/decision_tree.py:112-116 | Corrected, identical rows with mixed labels give a leaf holding their majority label. |
| `DecisionTree.BuildSplitNode` | MachineLearningTechniques/hw3/decision_tree.py:118-126 | Mixed labels on rows not called identical give a node at `decide_branch`'s split over the trees built from the two sides. |
| `DecisionTree.LowerSideSmaller` | MachineLearningTechniques/hw3/decision_tree.py:120-124 | The lower side of the chosen split always has fewer rows than the node. |
| `DecisionTree.BuiltNode` | MachineLearningTechniques/hw3/decision_tree.py:120-126 | A built inner node sits at `decide_branch`'s split. Both sides are non-empty, smaller than the node and built. |
| `DecisionTree.SplitAtNegInfFails` | MachineLearningTechniques/hw3/decision_tree.py:122-124 | A `-inf` threshold leaves the lower side empty, so the build fails, in either reading. |
| `DecisionTree.RowOffCorrectedThreshold` | MachineLearningTechniques/hw3/decision_tree.py:74 | In the corrected search a finite threshold lies strictly between two sorted values, so every row is strictly below or strictly above it. |
| `DecisionTree.CorrectedSplitKeepsEveryRow` | MachineLearningTechniques/hw3/decision_tree.py:120-123 | In the corrected search, at a finite threshold, both sides are non-empty and together hold every row. |
| `DecisionTree.FitsTrainingData` | MachineLearningTechniques/hw3/decision_tree.py:98-126 | Every training row, followed down a correctly built tree by its own features, reaches either a label-set leaf holding exactly its own label or a majority leaf. |
| `Findings.EmptyLowerSideFails` | MachineLearningTechniques/hw3/decision_tree.py:104 | An empty lower side at a splitting node fails the whole build. |
| `Findings.IdenticalRowsFailAsWritten` | MachineLearningTechniques/hw3/decision_tree.py:93 | As written, identical rows with mixed labels and at least one feature fail to build. |
| `Findings.IdenticalRowsCorrected` | MachineLearningTechniques/hw3/decision_tree.py:90-95 | Corrected, identical rows with mixed labels give the majority leaf. |
| `Findings.TieAtMinimumFailsAsWritten` | MachineLearningTechniques/hw3/decision_tree.py:66-74 | As written, a best cut between two copies of a column's smallest value fails the build. |
| `Findings.NothingBelowMinimum` | MachineLearningTechniques/hw3/decision_tree.py:86 | No row is strictly below a threshold at or under the column's smallest value. |
| `Findings.EmptyUpperSideFails` | MachineLearningTechniques/hw3/decision_tree.py:104-125 | An empty upper side at a splitting node fails the whole build, whether or not the lower side built. |
| `Findings.TieAtMaximumFailsAsWritten` | MachineLearningTechniques/hw3/decision_tree.py:66-74 | As written, a best cut between two copies of a column's largest value fails the build. |
| `Findings.NothingAboveMaximum` | MachineLearningTechniques/hw3/decision_tree.py:81 | No row is strictly above a threshold at or over the column's largest value. |
| `Findings.MaxTieExampleAsWritten` | MachineLearningTechniques/hw3/decision_tree.py:54-74 | As written, rows `[c], [c+1], [c+1], [c+1]` labelled `1, 1, -1, -1` choose the free cut at threshold `c+1`, and the build fails. |
| `Findings.MaxTieCorrectedBestCut` | MachineLearningTechniques/hw3/decision_tree.py:69-74 | Corrected, only the first cut of that example is scored, and it is chosen at `c+0.5` with cost 4/3. |
| `Findings.MaxTieExampleCorrected` | MachineLearningTechniques/hw3/decision_tree.py:98-126 | Corrected, that example gives a split at `c+0.5` over the leaf `{1}` and a majority leaf for -1. |
| `Findings.TieExampleAsWritten` | MachineLearningTechniques/hw3/decision_tree.py:66-74 | As written, rows `[c], [c], [c+1]` labelled `1, -1, -1` fail to build. |
| `Findings.TieExampleBestCut` | MachineLearningTechniques/hw3/decision_tree.py:71-74 | As written, the example's chosen threshold is `c` itself, with cost 0. |
| `Findings.TieExampleCorrectedBestCut` | MachineLearningTechniques/hw3/decision_tree.py:69-74 | Corrected, the example's chosen threshold is `c + 0.5`, with cost 1. |
| `Findings.TieExampleCorrected` | MachineLearningTechniques/hw3/decision_tree.py:98-126 | Corrected, the example gives a split at `c + 0.5` with a majority leaf for 1 below and a pure leaf for -1 above. |
| `Findings.IdenticalExampleBuilds` | MachineLearningTechniques/hw3/decision_tree.py:112-116 | Three copies of `[c]` labelled `1, -1, 1` fail as written. Corrected, they give a majority leaf for 1. |
| `Findings.MidTieBestCut` | MachineLearningTechniques/hw3/decision_tree.py:66-74 | As written, on rows `[c], [c+1], [c+1], [c+2]` labelled `1, 1, -1, -1` and sorted stably, the chosen cut is the free one between the two copies of `c+1`, with threshold `c+1`. |
| `Findings.MidTieExampleAsWritten` | MachineLearningTechniques/hw3/decision_tree.py:98-126 | As written and with the stable sort, that example builds a single split at `c+1` over the leaves `{1}` and `{-1}`, and the tree fits neither row `[c+1]` with its own label. |
| `Findings.MidTieRowsLost` | MachineLearningTechniques/hw3/decision_tree.py:79-87 | The tree built as written fits neither of the rows `[c+1]`, whatever label they carry: they sit on the threshold and reach no leaf. |
| `Findings.MidTieCorrectedBestCut` | MachineLearningTechniques/hw3/decision_tree.py:69-74 | Corrected, the cut between the copies is skipped. The first of the two outer cuts, both costing 4/3 against 2, is chosen at `c+0.5`. |
| `Findings.MidTieExampleCorrected` | MachineLearningTechniques/hw3/decision_tree.py:98-126 | Corrected, the example gives a split at `c+0.5` over the leaf `{1}` and a split at `c+1.5` holding a majority leaf for the two copies of `c+1` and the leaf `{-1}`. |
| `Scenarios.StepExampleBuilds` | MachineLearningTechniques/hw3/decision_tree.py:98-126 | Rows `[c], [c+1], [c+2], [c+3]` labelled `-1, -1, 1, 1` build, in either reading, to one split at `c+1.5` over the leaves `{-1}` and `{1}`. |
| `Scenarios.TwoPairsChoice` | MachineLearningTechniques/hw3/decision_tree.py:66-74 | On one feature with labels `a, a, b, b` in both row order and sorted order, the middle cut, which costs 0, is returned whenever it is scored. |

## Left out

- `load_file` (file reading and numpy parsing) and `plot_sign` (plotting) are I/O.
- The `__main__` driver is I/O.
- Floating point: the model computes impurities and midpoints in exact reals, with no rounding.
- numpy's view-versus-copy behaviour of the filtered arrays is not modelled. The model only builds new sequences.
- The order of `argsort` among equal keys: numpy's default sort is not stable, so the code leaves that order unspecified. The model fixes a stable order, so among equal values the cut costs are those of that order.
- The ordering of `set` and `Counter` is fixed to first appearance. This matters only for ties in `majority_item`, which go to the label seen first.
- `gini_index` of an empty list returns 1 in the code (the sum has no terms and nothing is divided), and `Labels.Gini` follows the code. The code never calls it on an empty list: `build_dt` asserts non-empty input (line 104), and both slices of every cut on lines 66-70 hold at least one label.
- `DT_Node` keeps the node's `label` field even on inner nodes (as `None`). The model's `Tree` has leaves and nodes only.
- The source has no prediction routine. `DecisionTree.Fits` is a predicate of this model and counts a majority leaf as fitting every row that reaches it.
- The search state carries the position of the chosen cut beside `min_err`, `best_axis` and `best_thres`, so that "the first minimum" can be stated. The code does not keep it.
- `Split.ScoreAxis` takes each cut's cost from `CutCost`, the weighted impurity of the two sorted slices, instead of spelling out the slice arithmetic inside the loop.
- `DecisionTree.Build`: success is not proved for every input with mixed labels and distinct rows, even corrected. When no cut strictly improves on not splitting, the threshold is `-inf` and the build fails (`DecisionTree.SplitAtNegInfFails`). For example, rows `[0], [0], [1], [1]` labelled `1, -1, 1, -1` do this under the corrected search. The code has the same behaviour, and the model does not invent a repair for it.
- `Split.DecideBranch`: with no features (`D = 0`) the axis returned is 0, so the bound `axis < D` is stated only for `D > 0`.

## Findings

| source | as written | input that shows it | evidently intended | confidence | as-written member | corrected member |
|---|---|---|---|---|---|---|
| MachineLearningTechniques/hw3/decision_tree.py:93 | `set(X[:, d]) == 1` compares a set with an integer and is never true, so `all_same_rows` is false whenever there is a feature. Identical rows with mixed labels go to the split search, whose threshold is then their common value or `-inf`. No row is strictly below it, and the assertion on line 104 fails. | `X = [[c], [c], [c]]`, `Y = [1, -1, 1]` | `len(set(X[:, d])) == 1`, as the comment on line 91 says. Identical rows then become a majority leaf (label 1). | not executed | `Findings.IdenticalRowsFailAsWritten` | `Findings.IdenticalRowsCorrected` |
| MachineLearningTechniques/hw3/decision_tree.py:66-74 | Every cut is scored, including a cut between two equal sorted values. When such a cut wins, the threshold equals that value, and the strict filters on lines 81 and 86 drop those rows. When the tie is at the column's smallest value, the lower side comes out empty and the assertion on line 104 fails, although a valid split exists. A tie at the column's largest value fails the same way on the upper side (last row). | `X = [[c], [c], [c+1]]`, `Y = [1, -1, -1]`: the tied first cut costs 0 and the threshold is `c` | Only cuts between distinct sorted values are scored. The threshold then lies strictly between two values, every row goes to exactly one non-empty side, and this input splits at `c + 0.5`. | not executed | `Findings.TieExampleAsWritten` | `Findings.TieExampleCorrected` |
| MachineLearningTechniques/hw3/decision_tree.py:66-74 | A tied cut strictly inside a column leaves both sides non-empty, so that node does not fail at line 104. The rows equal to the threshold go to neither side, and the build returns a tree that has no leaf for them. This holds with the tied rows in row order (the model's stable sort; numpy's insertion sort for short arrays gives the same); in the other order this input fails at line 104 instead. | `X = [[c], [c+1], [c+1], [c+2]]`, `Y = [1, 1, -1, -1]`: the tied cut costs 0, the threshold is `c+1`, and both rows `[c+1]` are dropped | Only cuts between distinct sorted values are scored. This input then splits at `c+0.5`, and its upper side at `c+1.5`, and every row reaches a leaf. | not executed | `Findings.MidTieExampleAsWritten` | `Findings.MidTieExampleCorrected` |
| MachineLearningTechniques/hw3/decision_tree.py:66-74 | A tied cut at the column's largest value puts the threshold on that value. No row is strictly above it (line 81), the upper side is empty, and its `build_dt` fails the assertion on line 104. | `X = [[c], [c+1], [c+1], [c+1]]`, `Y = [1, 1, -1, -1]`: the tied cut after the second row costs 0 and the threshold is `c+1` | Only cuts between distinct sorted values are scored. This input then splits at `c+0.5` into the leaf `{1}` and a majority leaf for -1 over the three copies of `c+1`. | not executed | `Findings.MaxTieExampleAsWritten` | `Findings.MaxTieExampleCorrected` |

=== FILE: dataset.dfy ===
/**
 Training data and split thresholds: the feature matrix `X` with its label
 vector `Y`, and the `-inf` sentinel the split search starts from.
 */
module Datasets {

  /**
   `x` holds one row of `dims` real features per example and `y` the
   example labels, in the same order.
   */
  datatype Dataset = Dataset(x: seq<seq<real>>, y: seq<int>, dims: nat) {

    /** Rows and labels are aligned and every row has `dims` features. */
    predicate WellFormed()
    {
      |x| == |y| && forall r :: 0 <= r < |x| ==> |x[r]| == dims
    }
  }

  /** Feature `d` of every row, `X[:, d]`. */
  function Column(ds: Dataset, d: nat): (col: seq<real>)
    requires ds.WellFormed() && d < ds.dims
    ensures |col| == |ds.y|
    ensures forall r :: 0 <= r < |col| ==> col[r] == ds.x[r][d]
  {
    seq(|ds.x|, r requires 0 <= r < |ds.x| => ds.x[r][d])
  }

  /** A split threshold: a real number, or `-inf` when no split improved. */
  datatype Threshold = NegInf | Finite(value: real)

  /** `v < thres`; nothing is below `-inf`. */
  predicate IsBelow(v: real, t: Threshold)
  {
    t.Finite? && v < t.value
  }

  /** `v > thres`; everything is above `-inf`. */
  predicate IsAbove(v: real, t: Threshold)
  {
    t.NegInf? || v > t.value
  }

  /** `v == thres`: the values that neither partition keeps. */
  predicate IsAt(v: real, t: Threshold)
  {
    t.Finite? && v == t.value
  }
}

=== FILE: findings.dfy ===
/**
 Two defects of the builder, each shown twice: on the code as written
 (`AsWritten`) and on the repaired reading (`Corrected`).

 1. `all_same_rows` compares a set with the integer `1`, so with at least
    one feature it never reports identical rows. Identical rows with mixed
    labels then go to the split search, whose threshold can only be their
    common value or `-inf`, and the lower side comes out empty.
 2. The search also scores cuts between two equal sorted values. When the
    best cut is one of them, the threshold equals a data value and the
    strict filters send the rows holding that value to neither side. At
    the smallest value of the column the lower side comes out empty, at
    the largest the upper side does, and the build fails. A tie strictly
    inside the column leaves both sides non-empty, so that node does not
    fail at line 104. With the tied rows in row order (the stable sort of
    this model) its tree has no leaf for the rows it dropped; in the other
    order a child can meet a tie at its own smallest value and fail there.
 */
module Findings {
  import opened Labels
  import opened Sorting
  import opened Datasets
  import opened Partition
  import opened Scan
  import opened Split
  import opened DecisionTree
  import opened Scenarios

  /** A build whose lower side is empty fails. */
  lemma EmptyLowerSideFails(ds: Dataset, v: Variant)
    requires ds.WellFormed() && |ds.y| > 0 && ds.dims > 0 && !Pure(ds.y) && !AllSameRows(ds, v, 0)
    requires BestSplit(ds, v).axis < ds.dims
    requires |DatasBelow(ds, BestSplit(ds, v).axis, BestSplit(ds, v).thres).y| == 0
    ensures Build(ds, v) == EmptyInput
  {
    DistinctSingletonIffPure(ds.y);
    LowerSideSmaller(ds, v);
  }

  /**
   As written, identical rows with mixed labels and at least one feature
   make the build fail instead of producing a majority leaf.
   */
  lemma IdenticalRowsFailAsWritten(ds: Dataset)
    requires ds.WellFormed() && |ds.y| > 0 && ds.dims > 0 && !Pure(ds.y) && IdenticalRows(ds)
    ensures Build(ds, AsWritten) == EmptyInput
  {
    var s := BestSplit(ds, AsWritten);
    if s.thres.NegInf? {
      SplitAtNegInfFails(ds, AsWritten);
    } else {
      var vs := SortedValues(ds, s.axis);
      assert vs[0] == ds.x[0][s.axis] == vs[s.pos + 1];
      TieAtMinimumFailsAsWritten(ds);
    }
  }

  /**
   Corrected, identical rows with mixed labels become the majority leaf
   the comment on `all_same_rows` describes, for any number of features.
   */
  lemma IdenticalRowsCorrected(ds: Dataset)
    requires ds.WellFormed() && |ds.y| > 0 && !Pure(ds.y) && IdenticalRows(ds)
    ensures Build(ds, Corrected) == Built(Leaf(Majority(MajorityItem(ds.y))))
  {
    BuildMajorityLeaf(ds);
  }

  /**
   As written, a best cut between two copies of the column's smallest
   value puts the threshold on that value; no row is strictly below it,
   so the build fails.
   */
  lemma TieAtMinimumFailsAsWritten(ds: Dataset)
    requires ds.WellFormed() && |ds.y| > 0 && ds.dims > 0 && !Pure(ds.y)
    requires BestSplit(ds, AsWritten).thres.Finite?
    requires var s := BestSplit(ds, AsWritten);
      SortedValues(ds, s.axis)[0] == SortedValues(ds, s.axis)[s.pos + 1]
    ensures Build(ds, AsWritten) == EmptyInput
  {
    var s := BestSplit(ds, AsWritten);
    NothingBelowMinimum(ds, s.axis, s.thres.value);
    EmptyLowerSideFails(ds, AsWritten);
  }

  /** No row is strictly below a threshold at or under the smallest value of its feature. */
  lemma NothingBelowMinimum(ds: Dataset, d: nat, t: real)
    requires ds.WellFormed() && d < ds.dims && |ds.y| > 0 && t <= SortedValues(ds, d)[0]
    ensures |DatasBelow(ds, d, Finite(t)).y| == 0
  {
    var vs := SortedValues(ds, d);
    var col := Column(ds, d);
    forall k | 0 <= k < |col|
      ensures !BelowMask(col, Finite(t))[k]
    {
      var j := SortedPosition(ds, d, k);
      assert vs[0] <= vs[j];
    }
    CountTrueNone(BelowMask(col, Finite(t)));
  }

  /** A build whose upper side is empty fails, after the lower side, or with it. */
  lemma EmptyUpperSideFails(ds: Dataset, v: Variant)
    requires ds.WellFormed() && |ds.y| > 0 && ds.dims > 0 && !Pure(ds.y) && !AllSameRows(ds, v, 0)
    requires BestSplit(ds, v).axis < ds.dims
    requires |DatasAbove(ds, BestSplit(ds, v).axis, BestSplit(ds, v).thres).y| == 0
    ensures Build(ds, v) == EmptyInput
  {
    DistinctSingletonIffPure(ds.y);
    LowerSideSmaller(ds, v);
  }

  /**
   As written, a best cut between two copies of the column's largest value
   puts the threshold on that value; no row is strictly above it, so the
   build fails.
   */
  lemma TieAtMaximumFailsAsWritten(ds: Dataset)
    requires ds.WellFormed() && |ds.y| > 0 && ds.dims > 0 && !Pure(ds.y)
    requires BestSplit(ds, AsWritten).thres.Finite?
    requires var s := BestSplit(ds, AsWritten);
      SortedValues(ds, s.axis)[s.pos] == SortedValues(ds, s.axis)[|ds.y| - 1]
    ensures Build(ds, AsWritten) == EmptyInput
  {
    var s := BestSplit(ds, AsWritten);
    NothingAboveMaximum(ds, s.axis, s.thres.value);
    EmptyUpperSideFails(ds, AsWritten);
  }

  /** No row is strictly above a threshold at or over the largest value of its feature. */
  lemma NothingAboveMaximum(ds: Dataset, d: nat, t: real)
    requires ds.WellFormed() && d < ds.dims && |ds.y| > 0 && SortedValues(ds, d)[|ds.y| - 1] <= t
    ensures |DatasAbove(ds, d, Finite(t)).y| == 0
  {
    var vs := SortedValues(ds, d);
    var col := Column(ds, d);
    forall k | 0 <= k < |col|
      ensures !AboveMask(col, Finite(t))[k]
    {
      var j := SortedPosition(ds, d, k);
      assert vs[j] <= vs[|ds.y| - 1];
    }
    CountTrueNone(AboveMask(col, Finite(t)));
  }

  /**
   Three rows on one feature: two copies of `c` labelled 1 and -1, then
   `c + 1` labelled -1.
   */
  function TieExample(c: real): (ds: Dataset)
    ensures ds.WellFormed() && !Pure(ds.y)
  {
    var ds := Dataset([[c], [c], [c + 1.0]], [1, -1, -1], 1);
    assert ds.y[0] != ds.y[1];
    ds
  }

  /** The stable sort of the example's only feature keeps the rows in place. */
  lemma TieExampleSorted(c: real)
    ensures SortIndex(TieExample(c), 0) == [0, 1, 2]
    ensures SortedValues(TieExample(c), 0) == [c, c, c + 1.0]
    ensures SortedLabels(TieExample(c), 0) == [1, -1, -1]
  {
    var ds := TieExample(c);
    var order := SortIndex(ds, 0);
    var keys := Column(ds, 0);
    assert StablySorted(keys, order);
    assert 0 in order && 1 in order && 2 in order;
    assert Precedes(keys, order[0], order[1]) && Precedes(keys, order[1], order[2]);
    assert order == [0, 1, 2];
  }

  /**
   The costs of the example's two cuts: 0 after the first row, whose sides
   are both pure, and 1 after the second, where the copies of `c` disagree.
   */
  lemma TieExampleCutCosts(c: real)
    ensures CutCost(TieExample(c), 0, 0) == 0.0
    ensures CutCost(TieExample(c), 0, 1) == 1.0
  {
    TieExampleSorted(c);
    CutCostsOfLabels(TieExample(c));
  }

  /** Any data whose labels read 1, -1, -1 in sorted order has the example's cut costs. */
  lemma CutCostsOfLabels(ds: Dataset)
    requires ds.WellFormed() && ds.dims > 0 && SortedLabels(ds, 0) == [1, -1, -1]
    ensures CutCost(ds, 0, 0) == 0.0
    ensures CutCost(ds, 0, 1) == 1.0
  {
    FirstCutOfLabels(ds);
    SecondCutOfLabels(ds);
  }

  /** The first cut leaves 1 against -1, -1: both sides pure. */
  lemma FirstCutOfLabels(ds: Dataset)
    requires ds.WellFormed() && ds.dims > 0 && SortedLabels(ds, 0) == [1, -1, -1]
    ensures CutCost(ds, 0, 0) == 0.0
  {
    var ys := SortedLabels(ds, 0);
    assert ys[..1] == [1] && ys[1..] == [-1, -1];
    PureLabels([1], 1);
    PureLabels([-1, -1], -1);
  }

  /** The second cut leaves 1, -1 against -1. */
  lemma SecondCutOfLabels(ds: Dataset)
    requires ds.WellFormed() && ds.dims > 0 && SortedLabels(ds, 0) == [1, -1, -1]
    ensures CutCost(ds, 0, 1) == 1.0
  {
    var ys := SortedLabels(ds, 0);
    assert ys[..2] == [1, -1] && ys[2..] == [-1];
    PureLabels([-1], -1);
    TieExampleImpurityPair();
  }

  /** The two midpoints: `c` between the copies of `c`, `c + 0.5` after them. */
  lemma TieExampleThresholds(c: real)
    ensures CutThreshold(TieExample(c), 0, 0) == c
    ensures CutThreshold(TieExample(c), 0, 1) == c + 0.5
  {
    var vs := SortedValues(TieExample(c), 0);
    assert vs == [c, c, c + 1.0] by { TieExampleSorted(c); }
    assert CutThreshold(TieExample(c), 0, 0) == (vs[0] + vs[1]) * 0.5;
    assert CutThreshold(TieExample(c), 0, 1) == (vs[1] + vs[2]) * 0.5;
  }

  /** Not splitting the example costs 4/3. */
  lemma TieExampleBaseline(c: real)
    ensures Baseline(TieExample(c)) == 4.0 / 3.0
  {
    TieExampleImpurityAll();
  }

  /** Corrected, the cut after the second row is the only one scored. */
  lemma TieExampleCandidates(c: real)
    ensures Candidate(TieExample(c), Corrected, 0, 1)
    ensures forall e: nat, j: nat :: Candidate(TieExample(c), Corrected, e, j) ==> e == 0 && j == 1
  {
    var vs := SortedValues(TieExample(c), 0);
    assert vs == [c, c, c + 1.0] by { TieExampleSorted(c); }
    assert vs[0] == vs[1] && vs[1] < vs[2];
  }

  /** The distinct labels of the example, in order of first appearance. */
  lemma TieExampleDistinct()
    ensures Distinct([1, -1, -1]) == [1, -1]
    ensures Distinct([1, -1]) == [1, -1]
  {
    assert [1, -1][..1] == [1];
    assert [1, -1, -1][..2] == [1, -1];
  }

  /** Label 1 once and -1 twice: the squares of the counts add up to 5. */
  lemma TieExampleSquaresAll()
    ensures SumSquares([1, -1, -1], [1, -1]) == 5
  {
    var ys := [1, -1, -1];
    assert Count(ys, 1) == 1 && Count(ys, -1) == 2 by {
      assert ys[..2] == [1, -1] && [1, -1][..1] == [1] && [1][..0] == [];
    }
    assert [1, -1][..1] == [1] && [1][..0] == [];
  }

  /** Labels 1 and -1 once each: the squares of the counts add up to 2. */
  lemma TieExampleSquaresPair()
    ensures SumSquares([1, -1], [1, -1]) == 2
  {
    var ys := [1, -1];
    assert Count(ys, 1) == 1 && Count(ys, -1) == 1 by {
      assert ys[..1] == [1] && [1][..0] == [];
    }
    assert [1, -1][..1] == [1] && [1][..0] == [];
  }

  /** All three labels of the example: weighted impurity 3 - 5/3 = 4/3. */
  lemma TieExampleImpurityAll()
    ensures WeightedGini([1, -1, -1]) == 4.0 / 3.0
  {
    TieExampleDistinct();
    TieExampleSquaresAll();
  }

  /** The labels 1 and -1 once each: weighted impurity 2 - 2/2 = 1. */
  lemma TieExampleImpurityPair()
    ensures WeightedGini([1, -1]) == 1.0
  {
    TieExampleDistinct();
    TieExampleSquaresPair();
  }

  /**
   As written, the search picks the example's first cut, the one between
   the two copies of `c`: both its sides are pure, so it costs 0 against
   4/3, and its threshold is `c` itself.
   */
  lemma TieExampleBestCut(c: real)
    ensures BestSplit(TieExample(c), AsWritten) == Best(0.0, 0, 0, Finite(c))
  {
    TieExampleCutCosts(c);
    TieExampleBaseline(c);
    TieExampleThresholds(c);
    FreeFirstCutChosen(TieExample(c), AsWritten);
  }

  /**
   As written, nothing in the example is strictly below `c`, and the build
   fails although one split would separate the labels.
   */
  lemma TieExampleAsWritten(c: real)
    ensures Build(TieExample(c), AsWritten) == EmptyInput
  {
    TieExampleBestCut(c);
    TieExampleSmallest(c);
    NothingBelowMinimum(TieExample(c), 0, c);
    EmptyLowerSideFails(TieExample(c), AsWritten);
  }

  /** The smallest value of the example's feature is `c`. */
  lemma TieExampleSmallest(c: real)
    ensures SortedValues(TieExample(c), 0)[0] == c
  {
    TieExampleSorted(c);
  }

  /**
   Corrected, the search skips the cut between the copies of `c` and picks
   the next (cost 1, below the baseline 4/3), at threshold `c + 0.5`.
   */
  lemma TieExampleCorrectedBestCut(c: real)
    ensures BestSplit(TieExample(c), Corrected) == Best(1.0, 0, 1, Finite(c + 0.5))
  {
    TieExampleCutCosts(c);
    TieExampleBaseline(c);
    TieExampleThresholds(c);
    TieExampleCandidates(c);
    OnlyCandidateChosen(TieExample(c), Corrected, 0, 1);
  }

  /** Of three entries, a mask keeping the first two and one keeping the last. */
  lemma CompressThree<T>(xs: seq<T>)
    requires |xs| == 3
    ensures Compress(xs, [true, true, false]) == [xs[0], xs[1]]
    ensures Compress(xs, [false, false, true]) == [xs[2]]
  {
    assert [true, true, false][..2] == [true, true] && [true, true][..1] == [true] && [true][..0] == [];
    assert [false, false, true][..2] == [false, false] && [false, false][..1] == [false] && [false][..0] == [];
    assert xs[..2][..1] == xs[..1] && xs[..1][..0] == [];
  }

  /** Threshold `c + 0.5` sends the two copies of `c` down. */
  lemma TieExampleLowerSide(c: real)
    ensures DatasBelow(TieExample(c), 0, Finite(c + 0.5)) == Dataset([[c], [c]], [1, -1], 1)
  {
    var ds := TieExample(c);
    assert BelowMask(Column(ds, 0), Finite(c + 0.5)) == [true, true, false];
    CompressThree(ds.x);
    CompressThree(ds.y);
  }

  /** Threshold `c + 0.5` sends `c + 1` up. */
  lemma TieExampleUpperSide(c: real)
    ensures DatasAbove(TieExample(c), 0, Finite(c + 0.5)) == Dataset([[c + 1.0]], [-1], 1)
  {
    var ds := TieExample(c);
    assert AboveMask(Column(ds, 0), Finite(c + 0.5)) == [false, false, true];
    CompressThree(ds.x);
    CompressThree(ds.y);
  }

  /** With the two labels tied, the majority is the one seen first. */
  lemma FirstOfTwoTied()
    ensures MajorityItem([1, -1]) == 1
  {
    var r := MajorityItem([1, -1]);
    assert Count([1, -1], 1) == 1 && Count([1, -1], -1) == 1 by {
      assert [1, -1][..1] == [1] && [1][..0] == [];
    }
    assert [1, -1][..1] == [1];
  }

  /** The two copies of `c`, labelled 1 and -1, become a majority leaf for 1. */
  lemma TieExampleLowerLeaf(c: real)
    ensures Build(Dataset([[c], [c]], [1, -1], 1), Corrected) == Built(Leaf(Majority(1)))
  {
    var lower := Dataset([[c], [c]], [1, -1], 1);
    assert lower.y[0] != lower.y[1];
    IdenticalRowsCorrected(lower);
    FirstOfTwoTied();
  }

  /** The last row, labelled -1, becomes a pure leaf. */
  lemma TieExampleUpperLeaf(c: real)
    ensures Build(Dataset([[c + 1.0]], [-1], 1), Corrected) == Built(Leaf(LabelSet({-1})))
  {
    BuildPureLeaf(Dataset([[c + 1.0]], [-1], 1), Corrected);
  }

  /** The example's rows differ, so the corrected row check lets it split. */
  lemma TieExampleRowsDiffer(c: real)
    ensures !AllSameRows(TieExample(c), Corrected, 0)
  {
    var ds := TieExample(c);
    assert ds.x[2][0] != ds.x[0][0];
  }

  /**
   Corrected, the example becomes a split at `c + 0.5` with a majority
   leaf (label 1, first of the tie) for the two copies of `c` and a pure
   leaf for `c + 1`.
   */
  lemma TieExampleCorrected(c: real)
    ensures Build(TieExample(c), Corrected)
         == Built(Node(0, Finite(c + 0.5), Leaf(Majority(1)), Leaf(LabelSet({-1}))))
  {
    TieExampleCorrectedBestCut(c);
    TieExampleLowerSide(c);
    TieExampleUpperSide(c);
    TieExampleLowerLeaf(c);
    TieExampleUpperLeaf(c);
    TieExampleRowsDiffer(c);
    BuildSplitNode(TieExample(c), Corrected, Leaf(Majority(1)), Leaf(LabelSet({-1})));
  }

  /** Three copies of the row `[c]`, labelled 1, -1, 1. */
  function IdenticalExample(c: real): (ds: Dataset)
    ensures ds.WellFormed() && IdenticalRows(ds) && !Pure(ds.y)
  {
    var ds := Dataset([[c], [c], [c]], [1, -1, 1], 1);
    assert ds.y[0] != ds.y[1];
    ds
  }

  /** In the labels 1, -1, 1, label 1 has the majority. */
  lemma TwoOfThree()
    ensures MajorityItem([1, -1, 1]) == 1
  {
    assert Count([1, -1, 1], 1) == 2 && Count([1, -1, 1], -1) == 1 by {
      assert [1, -1, 1][..2] == [1, -1] && [1, -1][..1] == [1] && [1][..0] == [];
    }
  }

  /**
   The identical rows fail as written and become a majority leaf for
   label 1 (two votes against one) when corrected.
   */
  lemma IdenticalExampleBuilds(c: real)
    ensures Build(IdenticalExample(c), AsWritten) == EmptyInput
    ensures Build(IdenticalExample(c), Corrected) == Built(Leaf(Majority(1)))
  {
    IdenticalRowsFailAsWritten(IdenticalExample(c));
    IdenticalRowsCorrected(IdenticalExample(c));
    TwoOfThree();
  }

  /**
   Four rows on one feature: `c` and a copy of `c + 1` labelled 1, the
   other copy of `c + 1` and `c + 2` labelled -1. The tie sits in the
   middle of the column, on the cut that separates the labels.
   */
  function MidTieExample(c: real): (ds: Dataset)
    ensures ds.WellFormed() && !Pure(ds.y)
  {
    var ds := Dataset([[c], [c + 1.0], [c + 1.0], [c + 2.0]], [1, 1, -1, -1], 1);
    assert ds.y[0] != ds.y[2];
    ds
  }

  /** The example's feature values ascend. */
  lemma MidTieAscending(c: real)
    ensures forall i, j :: 0 <= i <= j < 4 ==> MidTieExample(c).x[i][0] <= MidTieExample(c).x[j][0]
  {
    var ds := MidTieExample(c);
    assert ds.x == [[c], [c + 1.0], [c + 1.0], [c + 2.0]];
  }

  /** The example is already sorted: its labels read 1, 1, -1, -1. */
  lemma MidTieSorted(c: real)
    ensures SortedValues(MidTieExample(c), 0) == [c, c + 1.0, c + 1.0, c + 2.0]
    ensures SortedLabels(MidTieExample(c), 0) == [1, 1, -1, -1]
  {
    var ds := MidTieExample(c);
    assert ds.x == [[c], [c + 1.0], [c + 1.0], [c + 2.0]];
    var col := Column(ds, 0);
    assert |col| == 4 && col[0] == c && col[1] == c + 1.0 && col[2] == c + 1.0 && col[3] == c + 2.0;
    assert col == [c, c + 1.0, c + 1.0, c + 2.0];
    MidTieAscending(c);
    PresortedColumn(ds, 0);
  }

  /** The midpoints of the first two cuts: `c + 0.5`, and `c + 1` between the copies. */
  lemma MidTieThresholds(c: real)
    ensures CutThreshold(MidTieExample(c), 0, 0) == c + 0.5
    ensures CutThreshold(MidTieExample(c), 0, 1) == c + 1.0
  {
    MidTieSorted(c);
  }

  /**
   As written, the search picks the free cut between the two copies of
   `c + 1`, so the threshold is `c + 1` itself.
   */
  lemma MidTieBestCut(c: real)
    ensures BestSplit(MidTieExample(c), AsWritten) == Best(0.0, 0, 1, Finite(c + 1.0))
  {
    MidTieSorted(c);
    MidTieThresholds(c);
    TwoPairsChoice(MidTieExample(c), AsWritten, 1, -1);
  }

  /** Threshold `c + 1` keeps only the first row below and only the last above. */
  lemma MidTieTieSides(c: real)
    ensures DatasBelow(MidTieExample(c), 0, Finite(c + 1.0)) == Dataset([[c]], [1], 1)
    ensures DatasAbove(MidTieExample(c), 0, Finite(c + 1.0)) == Dataset([[c + 2.0]], [-1], 1)
  {
    var ds := MidTieExample(c);
    assert BelowMask(Column(ds, 0), Finite(c + 1.0)) == [true, false, false, false];
    assert AboveMask(Column(ds, 0), Finite(c + 1.0)) == [false, false, false, true];
    CompressEnds(ds.x);
    CompressEnds(ds.y);
  }

  /** The tree built as written: one split at `c + 1` over the leaves `{1}` and `{-1}`. */
  function MidTieTree(c: real): (t: Tree)
    ensures t.Node? && t.thres == Finite(c + 1.0)
  {
    Node(0, Finite(c + 1.0), Leaf(LabelSet({1})), Leaf(LabelSet({-1})))
  }

  /**
   As written, the build of the example succeeds without complaint, but
   the two rows holding `c + 1` went to neither side: the tree fits
   neither of them.
   */
  lemma MidTieExampleAsWritten(c: real)
    ensures Build(MidTieExample(c), AsWritten) == Built(MidTieTree(c))
    ensures !Fits(MidTieTree(c), MidTieExample(c).x[1], MidTieExample(c).y[1])
    ensures !Fits(MidTieTree(c), MidTieExample(c).x[2], MidTieExample(c).y[2])
  {
    var ds := MidTieExample(c);
    MidTieAsWrittenChildren(c);
    BuildSplitNode(ds, AsWritten, Leaf(LabelSet({1})), Leaf(LabelSet({-1})));
    MidTieRowsLost(c, 1, ds.y[1]);
    MidTieRowsLost(c, 2, ds.y[2]);
  }

  /** As written, the two sides of the chosen cut are single rows and become leaves. */
  lemma MidTieAsWrittenChildren(c: real)
    ensures BestSplit(MidTieExample(c), AsWritten).axis == 0
    ensures BestSplit(MidTieExample(c), AsWritten).thres == Finite(c + 1.0)
    ensures Build(DatasBelow(MidTieExample(c), 0, Finite(c + 1.0)), AsWritten) == Built(Leaf(LabelSet({1})))
    ensures Build(DatasAbove(MidTieExample(c), 0, Finite(c + 1.0)), AsWritten) == Built(Leaf(LabelSet({-1})))
  {
    PureRowsBuild([[c]], [1], 1, AsWritten);
    PureRowsBuild([[c + 2.0]], [-1], -1, AsWritten);
    MidTieBestCut(c);
    MidTieTieSides(c);
  }

  /**
   The tree built as written sends the second and third rows of the
   example nowhere, and so fits neither, whatever label they carry.
   */
  lemma MidTieRowsLost(c: real, k: nat, y: int)
    requires k == 1 || k == 2
    ensures !Fits(MidTieTree(c), MidTieExample(c).x[k], y)
  {
    assert MidTieExample(c).x[k] == [c + 1.0];
  }

  /** Corrected, only the outer cuts are scored; the one between the copies is skipped. */
  lemma MidTieCandidates(c: real)
    ensures Candidate(MidTieExample(c), Corrected, 0, 0)
    ensures forall e: nat, j: nat :: Candidate(MidTieExample(c), Corrected, e, j) ==> e == 0 && (j == 0 || j == 2)
  {
    var vs := SortedValues(MidTieExample(c), 0);
    assert vs == [c, c + 1.0, c + 1.0, c + 2.0] by { MidTieSorted(c); }
    assert vs[0] < vs[1] && vs[1] == vs[2];
  }

  /** Both outer cuts cost 4/3, against 2 for not splitting. */
  lemma MidTieOuterCosts(c: real)
    ensures CutCost(MidTieExample(c), 0, 0) == 4.0 / 3.0
    ensures CutCost(MidTieExample(c), 0, 2) == 4.0 / 3.0
    ensures Baseline(MidTieExample(c)) == 2.0
  {
    MidTieSorted(c);
    TwoPairsFirstCut(MidTieExample(c), 1, -1);
    TwoPairsLastCut(MidTieExample(c), 1, -1);
    TwoPairsImpurity(1, -1);
  }

  /** Corrected, the first outer cut is the cheapest scored cut, and none comes before it. */
  lemma MidTieFirstOuterCheapest(c: real)
    ensures forall e: nat, j: nat :: Candidate(MidTieExample(c), Corrected, e, j) ==>
      CutCost(MidTieExample(c), 0, 0) <= CutCost(MidTieExample(c), e, j)
    ensures forall e: nat, j: nat :: Candidate(MidTieExample(c), Corrected, e, j) ==> !Earlier(e, j, 0, 0)
  {
    MidTieCandidates(c);
    MidTieOuterCosts(c);
  }

  /** Corrected, the search picks the first outer cut, at `c + 0.5`. */
  lemma MidTieCorrectedBestCut(c: real)
    ensures BestSplit(MidTieExample(c), Corrected) == Best(4.0 / 3.0, 0, 0, Finite(c + 0.5))
  {
    MidTieCandidates(c);
    MidTieOuterCosts(c);
    MidTieThresholds(c);
    MidTieFirstOuterCheapest(c);
    FirstMinimumChosen(MidTieExample(c), Corrected, 0, 0);
  }

  /** Threshold `c + 0.5` sends the first row down and the other three, the tie example at `c + 1`, up. */
  lemma MidTieCorrectedSides(c: real)
    ensures DatasBelow(MidTieExample(c), 0, Finite(c + 0.5)) == Dataset([[c]], [1], 1)
    ensures DatasAbove(MidTieExample(c), 0, Finite(c + 0.5)) == TieExample(c + 1.0)
  {
    var ds := MidTieExample(c);
    assert BelowMask(Column(ds, 0), Finite(c + 0.5)) == [true, false, false, false];
    assert AboveMask(Column(ds, 0), Finite(c + 0.5)) == [false, true, true, true];
    CompressEnds(ds.x);
    CompressEnds(ds.y);
    CompressTail(ds.x);
    CompressTail(ds.y);
  }

  /**
   Corrected, the example becomes a split at `c + 0.5` over the leaf `{1}`
   and the corrected tree of the tie example at `c + 1`: every row reaches
   a leaf, the two copies of `c + 1` a majority leaf.
   */
  lemma MidTieExampleCorrected(c: real)
    ensures Build(MidTieExample(c), Corrected)
         == Built(Node(0, Finite(c + 0.5), Leaf(LabelSet({1})),
                       Node(0, Finite(c + 1.5), Leaf(Majority(1)), Leaf(LabelSet({-1})))))
  {
    var ds := MidTieExample(c);
    var upper := Node(0, Finite(c + 1.5), Leaf(Majority(1)), Leaf(LabelSet({-1})));
    MidTieCorrectedChildren(c);
    MidTieRowsDiffer(c);
    BuildSplitNode(ds, Corrected, Leaf(LabelSet({1})), upper);
  }

  /** Corrected, the lower side of the chosen cut is a single row and the upper side the tie example at `c + 1`. */
  lemma MidTieCorrectedChildren(c: real)
    ensures BestSplit(MidTieExample(c), Corrected).axis == 0
    ensures BestSplit(MidTieExample(c), Corrected).thres == Finite(c + 0.5)
    ensures Build(DatasBelow(MidTieExample(c), 0, Finite(c + 0.5)), Corrected) == Built(Leaf(LabelSet({1})))
    ensures Build(DatasAbove(MidTieExample(c), 0, Finite(c + 0.5)), Corrected)
         == Built(Node(0, Finite(c + 1.5), Leaf(Majority(1)), Leaf(LabelSet({-1}))))
  {
    PureRowsBuild([[c]], [1], 1, Corrected);
    MidTieCorrectedBestCut(c);
    MidTieCorrectedSides(c);
    TieExampleCorrected(c + 1.0);
  }

  /**
   Four rows on one feature: `c` and one copy of `c + 1` labelled 1, two
   more copies of `c + 1` labelled -1. The tie sits at the top of the
   column, on the cut that separates the labels.
   */
  function MaxTieExample(c: real): (ds: Dataset)
    ensures ds.WellFormed() && !Pure(ds.y)
  {
    var ds := Dataset([[c], [c + 1.0], [c + 1.0], [c + 1.0]], [1, 1, -1, -1], 1);
    assert ds.y[0] != ds.y[2];
    ds
  }

  /** The example is already sorted: its labels read 1, 1, -1, -1. */
  lemma MaxTieSorted(c: real)
    ensures SortedValues(MaxTieExample(c), 0) == [c, c + 1.0, c + 1.0, c + 1.0]
    ensures SortedLabels(MaxTieExample(c), 0) == [1, 1, -1, -1]
  {
    var ds := MaxTieExample(c);
    assert ds.x == [[c], [c + 1.0], [c + 1.0], [c + 1.0]];
    var col := Column(ds, 0);
    assert |col| == 4 && col[0] == c && col[1] == c + 1.0 && col[2] == c + 1.0 && col[3] == c + 1.0;
    assert col == [c, c + 1.0, c + 1.0, c + 1.0];
    assert forall i, j :: 0 <= i <= j < 4 ==> ds.x[i][0] <= ds.x[j][0];
    PresortedColumn(ds, 0);
  }

  /**
   As written, the search picks the free cut between the first two copies
   of `c + 1`, the column's largest value, and the build fails.
   */
  lemma MaxTieExampleAsWritten(c: real)
    ensures BestSplit(MaxTieExample(c), AsWritten) == Best(0.0, 0, 1, Finite(c + 1.0))
    ensures Build(MaxTieExample(c), AsWritten) == EmptyInput
  {
    var ds := MaxTieExample(c);
    MaxTieSorted(c);
    TwoPairsChoice(ds, AsWritten, 1, -1);
    TieAtMaximumFailsAsWritten(ds);
  }

  /** Corrected, only the first cut is scored: the other two lie between copies of `c + 1`. */
  lemma MaxTieCandidates(c: real)
    ensures Candidate(MaxTieExample(c), Corrected, 0, 0)
    ensures forall e: nat, j: nat :: Candidate(MaxTieExample(c), Corrected, e, j) ==> e == 0 && j == 0
  {
    var vs := SortedValues(MaxTieExample(c), 0);
    assert vs == [c, c + 1.0, c + 1.0, c + 1.0] by { MaxTieSorted(c); }
    assert vs[0] < vs[1] && vs[1] == vs[2] && vs[2] == vs[3];
  }

  /** Corrected, the search picks the first cut (cost 4/3 against 2), at `c + 0.5`. */
  lemma MaxTieCorrectedBestCut(c: real)
    ensures BestSplit(MaxTieExample(c), Corrected) == Best(4.0 / 3.0, 0, 0, Finite(c + 0.5))
  {
    MaxTieCandidates(c);
    MaxTieFirstCut(c);
    OnlyCandidateChosen(MaxTieExample(c), Corrected, 0, 0);
  }

  /** The first cut costs 4/3 against 2 for not splitting, and its midpoint is `c + 0.5`. */
  lemma MaxTieFirstCut(c: real)
    ensures CutCost(MaxTieExample(c), 0, 0) == 4.0 / 3.0
    ensures Baseline(MaxTieExample(c)) == 2.0
    ensures CutThreshold(MaxTieExample(c), 0, 0) == c + 0.5
  {
    MaxTieSorted(c);
    TwoPairsFirstCut(MaxTieExample(c), 1, -1);
    TwoPairsImpurity(1, -1);
    MaxTieFirstThreshold(c);
  }

  /** The midpoint of the first cut. */
  lemma MaxTieFirstThreshold(c: real)
    ensures CutThreshold(MaxTieExample(c), 0, 0) == c + 0.5
  {
    MaxTieSorted(c);
  }

  /** Threshold `c + 0.5` sends the first row down and the three copies of `c + 1` up. */
  lemma MaxTieCorrectedSides(c: real)
    ensures DatasBelow(MaxTieExample(c), 0, Finite(c + 0.5)) == Dataset([[c]], [1], 1)
    ensures DatasAbove(MaxTieExample(c), 0, Finite(c + 0.5)) == Dataset([[c + 1.0], [c + 1.0], [c + 1.0]], [1, -1, -1], 1)
  {
    var ds := MaxTieExample(c);
    assert BelowMask(Column(ds, 0), Finite(c + 0.5)) == [true, false, false, false];
    assert AboveMask(Column(ds, 0), Finite(c + 0.5)) == [false, true, true, true];
    CompressEnds(ds.x);
    CompressEnds(ds.y);
    CompressTail(ds.x);
    CompressTail(ds.y);
  }

  /** In the labels 1, -1, -1, label -1 has the majority. */
  lemma OneOfThreeLoses()
    ensures MajorityItem([1, -1, -1]) == -1
  {
    assert Count([1, -1, -1], 1) == 1 && Count([1, -1, -1], -1) == 2 by {
      assert [1, -1, -1][..2] == [1, -1] && [1, -1][..1] == [1] && [1][..0] == [];
    }
  }

  /** Corrected, the three copies of `c + 1`, labelled 1, -1, -1, become a majority leaf for -1. */
  lemma MaxTieUpperLeaf(c: real)
    ensures Build(Dataset([[c + 1.0], [c + 1.0], [c + 1.0]], [1, -1, -1], 1), Corrected)
         == Built(Leaf(Majority(-1)))
  {
    var upper := Dataset([[c + 1.0], [c + 1.0], [c + 1.0]], [1, -1, -1], 1);
    assert upper.y[0] != upper.y[1];
    IdenticalRowsCorrected(upper);
    OneOfThreeLoses();
  }

  /**
   Corrected, the example becomes a split at `c + 0.5` over the leaf `{1}`
   and a majority leaf for -1 holding the three copies of `c + 1`.
   */
  lemma MaxTieExampleCorrected(c: real)
    ensures Build(MaxTieExample(c), Corrected)
         == Built(Node(0, Finite(c + 0.5), Leaf(LabelSet({1})), Leaf(Majority(-1))))
  {
    var ds := MaxTieExample(c);
    MaxTieCorrectedChildren(c);
    MaxTieRowsDiffer(c);
    BuildSplitNode(ds, Corrected, Leaf(LabelSet({1})), Leaf(Majority(-1)));
  }

  /** Corrected, the two sides of the chosen cut become the leaf `{1}` and a majority leaf for -1. */
  lemma MaxTieCorrectedChildren(c: real)
    ensures BestSplit(MaxTieExample(c), Corrected).axis == 0
    ensures BestSplit(MaxTieExample(c), Corrected).thres == Finite(c + 0.5)
    ensures Build(DatasBelow(MaxTieExample(c), 0, Finite(c + 0.5)), Corrected) == Built(Leaf(LabelSet({1})))
    ensures Build(DatasAbove(MaxTieExample(c), 0, Finite(c + 0.5)), Corrected) == Built(Leaf(Majority(-1)))
  {
    PureRowsBuild([[c]], [1], 1, Corrected);
    MaxTieCorrectedBestCut(c);
    MaxTieCorrectedSides(c);
    MaxTieUpperLeaf(c);
  }

  /** The rows of the mid-column example differ, so the corrected row check lets it split. */
  lemma MidTieRowsDiffer(c: real)
    ensures !AllSameRows(MidTieExample(c), Corrected, 0)
  {
    var ds := MidTieExample(c);
    assert ds.x[1][0] != ds.x[0][0];
  }

  /** The rows of the top-of-column example differ, so the corrected row check lets it split. */
  lemma MaxTieRowsDiffer(c: real)
    ensures !AllSameRows(MaxTieExample(c), Corrected, 0)
  {
    var ds := MaxTieExample(c);
    assert ds.x[1][0] != ds.x[0][0];
  }
}

=== FILE: labels.dfy ===
/**
 Class labels: occurrence counts, the distinct labels in order of first
 appearance (the iteration order of `set`/`Counter` that the model fixes),
 Gini impurity and the majority vote.
 */
module Labels {

  /** Number of occurrences of label `c` in `ys`. */
  function Count(ys: seq<int>, c: int): (n: nat)
    ensures n <= |ys|
    ensures n > 0 <==> c in ys
  {
    if |ys| == 0 then 0
    else
      assert ys == ys[..|ys| - 1] + [ys[|ys| - 1]];
      Count(ys[..|ys| - 1], c) + (if ys[|ys| - 1] == c then 1 else 0)
  }

  /** No label is listed twice. */
  predicate NoDuplicates(ds: seq<int>)
  {
    forall i, j :: 0 <= i < j < |ds| ==> ds[i] != ds[j]
  }

  /** All labels of `ys` are the same one. */
  predicate Pure(ys: seq<int>)
  {
    forall i, j :: 0 <= i < |ys| && 0 <= j < |ys| ==> ys[i] == ys[j]
  }

  /**
   The distinct labels of `ys`, each once, in order of first appearance:
   the elements of `set(Y)` / the keys of `Counter(Y)`.
   */
  function Distinct(ys: seq<int>): (ds: seq<int>)
    ensures forall c :: c in ds <==> c in ys
    ensures NoDuplicates(ds)
    ensures |ds| <= |ys|
  {
    if |ys| == 0 then []
    else
      var last := ys[|ys| - 1];
      var ds := Distinct(ys[..|ys| - 1]);
      assert ys == ys[..|ys| - 1] + [last];
      if last in ds then ds else ds + [last]
  }

  /** Labels listed earlier by `Distinct` occur earlier in `ys`. */
  lemma {:induction false} DistinctFirstAppearance(ys: seq<int>, i: nat, j: nat, p: nat) returns (q: nat)
    requires i < j < |Distinct(ys)|
    requires p < |ys| && ys[p] == Distinct(ys)[j]
    ensures q < p && ys[q] == Distinct(ys)[i]
  {
    var n := |ys|;
    var init := ys[..n - 1];
    var ds := Distinct(init);
    if p < n - 1 {
      assert ys[p] == init[p];
      assert ys[p] in init;
      assert j < |ds|;
      q := DistinctFirstAppearance(init, i, j, p);
    } else {
      assert i < |ds|;
      assert ds[i] in init;
      q :| 0 <= q < |init| && init[q] == ds[i];
    }
  }

  /** `Distinct(ys)` has a single entry exactly when `ys` is non-empty and pure. */
  lemma {:induction false} DistinctSingletonIffPure(ys: seq<int>)
    ensures |Distinct(ys)| == 1 <==> |ys| > 0 && Pure(ys)
  {
    var ds := Distinct(ys);
    if |ds| == 1 {
      forall i, j | 0 <= i < |ys| && 0 <= j < |ys|
        ensures ys[i] == ys[j]
      {
        assert ys[i] in ds && ys[j] in ds;
      }
    }
    if |ys| > 1 && Pure(ys) {
      var init := ys[..|ys| - 1];
      assert Pure(init);
      DistinctSingletonIffPure(init);
      assert ys[|ys| - 1] == init[0];
    }
  }

  /** Sum over the labels `ds` of their counts in `ys`. */
  function SumCounts(ys: seq<int>, ds: seq<int>): int
  {
    if |ds| == 0 then 0
    else SumCounts(ys, ds[..|ds| - 1]) + Count(ys, ds[|ds| - 1])
  }

  /** Sum over the labels `ds` of their squared counts in `ys`. */
  function SumSquares(ys: seq<int>, ds: seq<int>): int
  {
    if |ds| == 0 then 0
    else
      var f := Count(ys, ds[|ds| - 1]);
      SumSquares(ys, ds[..|ds| - 1]) + f * f
  }

  /**
   Gini impurity `1 - sum over distinct labels c of (count(c) / N)^2`,
   with the sum of squared shares written over the common denominator
   `N * N`. For an empty `ys` the sum has no terms, nothing is divided and
   the result is 1; for any other list some label has a positive share, so
   the result is below 1.
   */
  function Gini(ys: seq<int>): (g: real)
    ensures g <= 1.0
    ensures g == 1.0 <==> |ys| == 0
  {
    if |ys| == 0 then 1.0
    else
      var ds := Distinct(ys);
      assert ys[0] in ds;
      SumCountsPositive(ys, ds);
      PositiveRatio(SumSquares(ys, ds), |ys| * |ys|);
      1.0 - SumSquares(ys, ds) as real / (|ys| * |ys|) as real
  }

  /** A ratio of positive integers is positive. */
  lemma PositiveRatio(s: int, q: int)
    requires 0 < s && 0 < q
    ensures s as real / q as real > 0.0
  {
  }

  /** One more label adds one to the summed counts exactly when it is among `ds`. */
  lemma {:induction false} SumCountsAppend(init: seq<int>, last: int, ds: seq<int>)
    requires NoDuplicates(ds)
    ensures SumCounts(init + [last], ds) == SumCounts(init, ds) + (if last in ds then 1 else 0)
  {
    var ys := init + [last];
    assert ys[..|ys| - 1] == init;
    if |ds| > 0 {
      var front := ds[..|ds| - 1];
      assert ds == front + [ds[|ds| - 1]];
      SumCountsAppend(init, last, front);
    }
  }

  /** The counts of the distinct labels add up to the number of labels. */
  lemma {:induction false} SumCountsDistinct(ys: seq<int>)
    ensures SumCounts(ys, Distinct(ys)) == |ys|
  {
    if |ys| > 0 {
      var init := ys[..|ys| - 1];
      var last := ys[|ys| - 1];
      assert ys == init + [last];
      var ds := Distinct(init);
      SumCountsDistinct(init);
      SumCountsAppend(init, last, ds);
      if last !in ds {
        var ds' := ds + [last];
        assert ds'[..|ds'| - 1] == ds;
        assert Count(init, last) == 0;
        assert ys[..|ys| - 1] == init;
      }
    }
  }

  /** Every label of `ds` occurs in `ys`. */
  predicate AllOccur(ys: seq<int>, ds: seq<int>)
  {
    forall k :: 0 <= k < |ds| ==> ds[k] in ys
  }

  /** Labels that all occur have a positive total count and a positive sum of squares. */
  lemma {:induction false} SumCountsPositive(ys: seq<int>, ds: seq<int>)
    requires AllOccur(ys, ds) && |ds| > 0
    ensures SumCounts(ys, ds) > 0
    ensures SumSquares(ys, ds) > 0
  {
    var front := ds[..|ds| - 1];
    if |front| > 0 {
      SumCountsPositive(ys, front);
    }
  }

  /**
   The squared counts never exceed the squared total, and fall strictly
   short of it once two labels with positive counts are present.
   */
  lemma {:induction false} SquaresBound(ys: seq<int>, ds: seq<int>)
    requires AllOccur(ys, ds)
    ensures SumSquares(ys, ds) <= SumCounts(ys, ds) * SumCounts(ys, ds)
    ensures |ds| >= 2 ==> SumSquares(ys, ds) < SumCounts(ys, ds) * SumCounts(ys, ds)
  {
    if |ds| > 0 {
      var front := ds[..|ds| - 1];
      SquaresBound(ys, front);
      var a := Count(ys, ds[|ds| - 1]);
      assert a > 0;
      if |ds| >= 2 {
        SumCountsPositive(ys, front);
      }
      SquareOfSum(SumSquares(ys, front), SumCounts(ys, front), a);
    }
  }

  /** Adding `a > 0` to a total `s` adds more to its square than `a * a` once `s > 0`. */
  lemma SquareOfSum(q: int, s: int, a: int)
    requires 0 <= s && 0 < a && q <= s * s
    ensures q + a * a <= (s + a) * (s + a)
    ensures s > 0 ==> q + a * a < (s + a) * (s + a)
  {
    assert (s + a) * (s + a) == s * s + 2 * a * s + a * a;
    assert a * s >= 0;
    if s > 0 {
      assert a * s >= s by {
        assert a * s == (a - 1) * s + s;
        assert (a - 1) * s >= 0;
      }
    }
  }

  /** A ratio of positive integers at most 1, equal to 1 only for equal terms. */
  lemma RatioBounds(s: int, q: int)
    requires 0 < s <= q
    ensures 0.0 < s as real / q as real <= 1.0
    ensures s as real / q as real == 1.0 <==> s == q
  {
  }

  /**
   For non-empty labels the Gini impurity lies in [0, 1) and is 0 exactly
   when all labels are the same.
   */
  lemma GiniBounds(ys: seq<int>)
    requires |ys| > 0
    ensures 0.0 <= Gini(ys) < 1.0
    ensures Gini(ys) == 0.0 <==> Pure(ys)
  {
    var ds := Distinct(ys);
    var n := |ys|;
    var q := n * n;
    SumCountsDistinct(ys);
    SquaresBound(ys, ds);
    SumCountsPositive(ys, ds);
    DistinctSingletonIffPure(ys);
    var s := SumSquares(ys, ds);
    if |ds| == 1 {
      assert ds[..0] == [];
      assert s == q;
    } else {
      assert s < q;
    }
    RatioBounds(s, q);
  }

  /** `s / n` for `0 < s <= n * n` lies in (0, n], reaching `n` exactly when `s == n * n`. */
  lemma QuotientBounds(s: int, n: int)
    requires n > 0 && 0 < s <= n * n
    ensures 0.0 < s as real / n as real <= n as real
    ensures s as real / n as real == n as real <==> s == n * n
  {
    var w := n as real;
    assert (n * n) as real == w * w;
    assert w - s as real / w == (n * n - s) as real / w;
  }

  /**
   `len(Y) * gini_index(Y)`, the size-weighted impurity the split search
   compares, written as `N - sum of count(c)^2 / N`; zero for empty `ys`.
   It lies in [0, N) and is zero exactly for a pure non-empty list.
   */
  function WeightedGini(ys: seq<int>): (r: real)
    ensures |ys| == 0 ==> r == 0.0
    ensures |ys| > 0 ==> 0.0 <= r < |ys| as real
    ensures |ys| > 0 ==> (r == 0.0 <==> Pure(ys))
  {
    if |ys| == 0 then 0.0
    else
      var ds := Distinct(ys);
      SumCountsDistinct(ys);
      SquaresBound(ys, ds);
      SumCountsPositive(ys, ds);
      DistinctSingletonIffPure(ys);
      assert |ds| == 1 ==> ds[..0] == [];
      QuotientBounds(SumSquares(ys, ds), |ys|);
      |ys| as real - SumSquares(ys, ds) as real / |ys| as real
  }

  /** The weighted impurity is the impurity scaled by the number of labels. */
  lemma WeightedGiniScales(ys: seq<int>)
    ensures WeightedGini(ys) == |ys| as real * Gini(ys)
  {
    if |ys| > 0 {
      ScaleQuotient(|ys|, SumSquares(ys, Distinct(ys)), Gini(ys), WeightedGini(ys));
    }
  }

  /** `n * (1 - s / n^2) = n - s / n`, over the reals. */
  lemma ScaleQuotient(n: int, s: int, g: real, h: real)
    requires n > 0
    requires g == 1.0 - s as real / (n * n) as real
    requires h == n as real - s as real / n as real
    ensures n as real * g == h
  {
    var w, v := n as real, s as real;
    assert (n * n) as real == w * w;
    var f := v / (w * w);
    assert f * (w * w) == v;
    assert (w * f) * w == v;
    assert w * f == v / w;
  }

  /**
   Position in `ds` of the first label with the greatest count in `ys`:
   `max` with a key keeps the earlier item unless a later one is strictly
   larger.
   */
  function FirstMaxIndex(ys: seq<int>, ds: seq<int>): (k: nat)
    requires |ds| > 0
    ensures k < |ds|
    ensures forall j :: 0 <= j < |ds| ==> Count(ys, ds[j]) <= Count(ys, ds[k])
    ensures forall j :: 0 <= j < k ==> Count(ys, ds[j]) < Count(ys, ds[k])
  {
    if |ds| == 1 then 0
    else
      var best := FirstMaxIndex(ys, ds[..|ds| - 1]);
      if Count(ys, ds[|ds| - 1]) > Count(ys, ds[best]) then |ds| - 1 else best
  }

  /** The most frequent label of `ys`, ties going to the label seen first. */
  function MajorityItem(ys: seq<int>): (r: int)
    requires |ys| > 0
    ensures r in ys
    ensures forall c :: Count(ys, c) <= Count(ys, r)
    ensures forall p :: 0 <= p < |ys| && Count(ys, ys[p]) == Count(ys, r) ==> r in ys[..p + 1]
  {
    var ds := Distinct(ys);
    assert ys[0] in ds;
    var k := FirstMaxIndex(ys, ds);
    MajorityTieBreak(ys, k);
    ds[k]
  }

  /** The label at `FirstMaxIndex` has the greatest count and, among tied labels, appears first. */
  lemma MajorityTieBreak(ys: seq<int>, k: nat)
    requires |Distinct(ys)| > 0
    requires k == FirstMaxIndex(ys, Distinct(ys))
    ensures forall c :: Count(ys, c) <= Count(ys, Distinct(ys)[k])
    ensures forall p :: 0 <= p < |ys| && Count(ys, ys[p]) == Count(ys, Distinct(ys)[k]) ==> Distinct(ys)[k] in ys[..p + 1]
  {
    var ds := Distinct(ys);
    forall c
      ensures Count(ys, c) <= Count(ys, ds[k])
    {
      if c in ys {
        assert c in ds;
      }
    }
    forall p | 0 <= p < |ys| && Count(ys, ys[p]) == Count(ys, ds[k])
      ensures ds[k] in ys[..p + 1]
    {
      MajorityOccursBy(ys, k, p);
    }
  }

  /** A label tied with the majority at position `p` is preceded by it. */
  lemma MajorityOccursBy(ys: seq<int>, k: nat, p: nat)
    requires |Distinct(ys)| > 0
    requires k == FirstMaxIndex(ys, Distinct(ys))
    requires p < |ys| && Count(ys, ys[p]) == Count(ys, Distinct(ys)[k])
    ensures Distinct(ys)[k] in ys[..p + 1]
  {
    var ds := Distinct(ys);
    var q := p;
    if ys[p] != ds[k] {
      q := TiedLabelLater(ys, k, p);
    }
    assert ys[..p + 1][q] == ds[k];
  }

  /** A label other than the majority, tied with it, first appears after it. */
  lemma TiedLabelLater(ys: seq<int>, k: nat, p: nat) returns (q: nat)
    requires |Distinct(ys)| > 0
    requires k == FirstMaxIndex(ys, Distinct(ys))
    requires p < |ys| && Count(ys, ys[p]) == Count(ys, Distinct(ys)[k]) && ys[p] != Distinct(ys)[k]
    ensures q < p && ys[q] == Distinct(ys)[k]
  {
    var ds := Distinct(ys);
    assert ys[p] in ds;
    var j := IndexOf(ds, ys[p]);
    FirstMaxIndexIsFirst(ys, ds, k, j, p);
    q := DistinctFirstAppearance(ys, k, j, p);
  }

  /** A label tied with the chosen one sits after it in `ds`. */
  lemma FirstMaxIndexIsFirst(ys: seq<int>, ds: seq<int>, k: nat, j: nat, p: nat)
    requires |ds| > 0 && k == FirstMaxIndex(ys, ds)
    requires j < |ds| && p < |ys| && ds[j] == ys[p] && ds[j] != ds[k]
    requires Count(ys, ys[p]) == Count(ys, ds[k])
    ensures k < j
  {
    assert j != k && !(Count(ys, ds[j]) < Count(ys, ds[k]));
  }

  /** A position of `x` in `ds`. */
  function IndexOf(ds: seq<int>, x: int): (j: nat)
    requires x in ds
    ensures j < |ds| && ds[j] == x
  {
    if ds[0] == x then 0 else 1 + IndexOf(ds[1..], x)
  }
}

=== FILE: partition.dfy ===
/**
 `datas_below` / `datas_above`: a boolean mask over the rows, then the rows
 and labels the mask keeps, in their original order.
 */
module Partition {
  import opened Datasets

  /** Number of `true` entries of a mask. */
  function CountTrue(keep: seq<bool>): (n: nat)
    ensures n <= |keep|
  {
    if |keep| == 0 then 0
    else CountTrue(keep[..|keep| - 1]) + (if keep[|keep| - 1] then 1 else 0)
  }

  /** The row indices a mask keeps, in increasing order. */
  function KeptIndices(keep: seq<bool>): (idx: seq<nat>)
    ensures |idx| == CountTrue(keep)
    ensures forall k :: 0 <= k < |idx| ==> idx[k] < |keep| && keep[idx[k]]
    ensures forall k, l :: 0 <= k < l < |idx| ==> idx[k] < idx[l]
    ensures forall r: nat :: r < |keep| && keep[r] ==> r in idx
  {
    if |keep| == 0 then []
    else
      var front := keep[..|keep| - 1];
      var idx := KeptIndices(front);
      assert forall r :: 0 <= r < |front| ==> keep[r] == front[r];
      if keep[|keep| - 1] then idx + [|keep| - 1] else idx
  }

  /** The entries of `xs` whose mask entry is `true`, `xs[keep]`. */
  function Compress<T>(xs: seq<T>, keep: seq<bool>): (r: seq<T>)
    requires |xs| == |keep|
    ensures |r| == CountTrue(keep)
    ensures forall k :: 0 <= k < |r| ==> r[k] == xs[KeptIndices(keep)[k]]
  {
    if |keep| == 0 then []
    else
      var front := Compress(xs[..|xs| - 1], keep[..|keep| - 1]);
      if keep[|keep| - 1] then front + [xs[|xs| - 1]] else front
  }

  /** A mask that keeps no row counts zero. */
  lemma {:induction false} CountTrueNone(keep: seq<bool>)
    requires forall r :: 0 <= r < |keep| ==> !keep[r]
    ensures CountTrue(keep) == 0
  {
    if |keep| > 0 {
      CountTrueNone(keep[..|keep| - 1]);
    }
  }

  /** A mask that drops row `r` keeps fewer rows than there are. */
  lemma {:induction false} CountTrueMissing(keep: seq<bool>, r: nat)
    requires r < |keep| && !keep[r]
    ensures CountTrue(keep) < |keep|
  {
    var front := keep[..|keep| - 1];
    if r < |keep| - 1 {
      assert !front[r];
      CountTrueMissing(front, r);
    }
  }

  /**
   Three masks that keep every row exactly once between them count the
   rows exactly once.
   */
  lemma {:induction false} CountTrueExclusive(a: seq<bool>, b: seq<bool>, c: seq<bool>)
    requires |a| == |b| == |c|
    requires forall r :: 0 <= r < |a| ==> (if a[r] then 1 else 0) + (if b[r] then 1 else 0) + (if c[r] then 1 else 0) == 1
    ensures CountTrue(a) + CountTrue(b) + CountTrue(c) == |a|
  {
    if |a| > 0 {
      var n := |a| - 1;
      CountTrueExclusive(a[..n], b[..n], c[..n]);
    }
  }

  /** `X[:, axis] < thres`. */
  function BelowMask(col: seq<real>, t: Threshold): (keep: seq<bool>)
    ensures |keep| == |col|
    ensures forall r :: 0 <= r < |col| ==> keep[r] == IsBelow(col[r], t)
  {
    seq(|col|, r requires 0 <= r < |col| => IsBelow(col[r], t))
  }

  /** `X[:, axis] > thres`. */
  function AboveMask(col: seq<real>, t: Threshold): (keep: seq<bool>)
    ensures |keep| == |col|
    ensures forall r :: 0 <= r < |col| ==> keep[r] == IsAbove(col[r], t)
  {
    seq(|col|, r requires 0 <= r < |col| => IsAbove(col[r], t))
  }

  /** `X[:, axis] == thres`: the rows neither partition keeps. */
  function AtMask(col: seq<real>, t: Threshold): (keep: seq<bool>)
    ensures |keep| == |col|
    ensures forall r :: 0 <= r < |col| ==> keep[r] == IsAt(col[r], t)
  {
    seq(|col|, r requires 0 <= r < |col| => IsAt(col[r], t))
  }

  /** `X[keep, :], Y[keep]`. */
  function Select(ds: Dataset, keep: seq<bool>): (r: Dataset)
    requires ds.WellFormed() && |keep| == |ds.y|
    ensures r.WellFormed() && r.dims == ds.dims
    ensures |r.y| == CountTrue(keep)
    ensures forall k :: 0 <= k < |r.y| ==>
      r.x[k] == ds.x[KeptIndices(keep)[k]] && r.y[k] == ds.y[KeptIndices(keep)[k]]
  {
    Dataset(Compress(ds.x, keep), Compress(ds.y, keep), ds.dims)
  }

  /**
   `datas_below`: exactly the rows whose feature `axis` is strictly below `t`
   (`idx` lists them in increasing order), each with its own label.
   */
  function DatasBelow(ds: Dataset, axis: nat, t: Threshold): (r: Dataset)
    requires ds.WellFormed() && axis < ds.dims
    ensures r.WellFormed() && r.dims == ds.dims
    ensures |r.y| <= |ds.y|
    ensures forall k :: 0 <= k < |r.y| ==> IsBelow(r.x[k][axis], t)
    ensures var idx := KeptIndices(BelowMask(Column(ds, axis), t));
      && |r.y| == |idx|
      && (forall j: nat :: j < |ds.y| ==> (j in idx <==> IsBelow(ds.x[j][axis], t)))
      && (forall k, l :: 0 <= k < l < |idx| ==> idx[k] < idx[l])
      && (forall k :: 0 <= k < |idx| ==> r.x[k] == ds.x[idx[k]] && r.y[k] == ds.y[idx[k]])
  {
    Select(ds, BelowMask(Column(ds, axis), t))
  }

  /**
   `datas_above`: exactly the rows whose feature `axis` is strictly above `t`
   (`idx` lists them in increasing order), each with its own label.
   */
  function DatasAbove(ds: Dataset, axis: nat, t: Threshold): (r: Dataset)
    requires ds.WellFormed() && axis < ds.dims
    ensures r.WellFormed() && r.dims == ds.dims
    ensures |r.y| <= |ds.y|
    ensures forall k :: 0 <= k < |r.y| ==> IsAbove(r.x[k][axis], t)
    ensures var idx := KeptIndices(AboveMask(Column(ds, axis), t));
      && |r.y| == |idx|
      && (forall j: nat :: j < |ds.y| ==> (j in idx <==> IsAbove(ds.x[j][axis], t)))
      && (forall k, l :: 0 <= k < l < |idx| ==> idx[k] < idx[l])
      && (forall k :: 0 <= k < |idx| ==> r.x[k] == ds.x[idx[k]] && r.y[k] == ds.y[idx[k]])
  {
    Select(ds, AboveMask(Column(ds, axis), t))
  }

  /**
   No row is in both partitions, and the rows equal to the threshold are in
   neither: below, above and at-threshold rows add up to all rows.
   */
  lemma PartitionCounts(ds: Dataset, axis: nat, t: Threshold)
    requires ds.WellFormed() && axis < ds.dims
    ensures forall r: nat :: r < |ds.y| ==>
      !(r in KeptIndices(BelowMask(Column(ds, axis), t)) && r in KeptIndices(AboveMask(Column(ds, axis), t)))
    ensures |DatasBelow(ds, axis, t).y| + |DatasAbove(ds, axis, t).y|
            + CountTrue(AtMask(Column(ds, axis), t)) == |ds.y|
  {
    var col := Column(ds, axis);
    CountTrueExclusive(BelowMask(col, t), AboveMask(col, t), AtMask(col, t));
  }

  /**
   A threshold strictly between two values of the column leaves both
   partitions non-empty and strictly smaller than the data.
   */
  lemma StrictThresholdSplits(ds: Dataset, axis: nat, m: real, p: nat, q: nat)
    requires ds.WellFormed() && axis < ds.dims
    requires p < |ds.y| && q < |ds.y|
    requires ds.x[p][axis] < m < ds.x[q][axis]
    ensures 0 < |DatasBelow(ds, axis, Finite(m)).y| < |ds.y|
    ensures 0 < |DatasAbove(ds, axis, Finite(m)).y| < |ds.y|
  {
    var col := Column(ds, axis);
    var t := Finite(m);
    CountTrueMissing(BelowMask(col, t), q);
    CountTrueMissing(AboveMask(col, t), p);
    assert p in KeptIndices(BelowMask(col, t));
    assert q in KeptIndices(AboveMask(col, t));
  }

  /** Some row not below the threshold leaves the lower partition smaller. */
  lemma BelowSmaller(ds: Dataset, axis: nat, t: Threshold, q: nat)
    requires ds.WellFormed() && axis < ds.dims
    requires q < |ds.y| && !IsBelow(ds.x[q][axis], t)
    ensures |DatasBelow(ds, axis, t).y| < |ds.y|
  {
    CountTrueMissing(BelowMask(Column(ds, axis), t), q);
  }

  /** A non-empty lower partition leaves the upper partition smaller. */
  lemma AboveSmallerWhenBelowNonEmpty(ds: Dataset, axis: nat, t: Threshold)
    requires ds.WellFormed() && axis < ds.dims
    requires |DatasBelow(ds, axis, t).y| > 0
    ensures |DatasAbove(ds, axis, t).y| < |ds.y|
  {
    var col := Column(ds, axis);
    var p := KeptIndices(BelowMask(col, t))[0];
    CountTrueMissing(AboveMask(col, t), p);
  }

  /** Nothing lies below `-inf`. */
  lemma NothingBelowNegInf(ds: Dataset, axis: nat)
    requires ds.WellFormed() && axis < ds.dims
    ensures |DatasBelow(ds, axis, NegInf).y| == 0
  {
    CountTrueNone(BelowMask(Column(ds, axis), NegInf));
  }

  /** A row strictly below `t` reappears, with its label, somewhere on the lower side. */
  lemma RowKeptBelow(ds: Dataset, axis: nat, t: Threshold, k: nat) returns (m: nat)
    requires ds.WellFormed() && axis < ds.dims && k < |ds.y| && IsBelow(ds.x[k][axis], t)
    ensures m < |DatasBelow(ds, axis, t).y|
    ensures DatasBelow(ds, axis, t).x[m] == ds.x[k] && DatasBelow(ds, axis, t).y[m] == ds.y[k]
  {
    var idx := KeptIndices(BelowMask(Column(ds, axis), t));
    m :| 0 <= m < |idx| && idx[m] == k;
  }

  /** A row strictly above `t` reappears, with its label, somewhere on the upper side. */
  lemma RowKeptAbove(ds: Dataset, axis: nat, t: Threshold, k: nat) returns (m: nat)
    requires ds.WellFormed() && axis < ds.dims && k < |ds.y| && IsAbove(ds.x[k][axis], t)
    ensures m < |DatasAbove(ds, axis, t).y|
    ensures DatasAbove(ds, axis, t).x[m] == ds.x[k] && DatasAbove(ds, axis, t).y[m] == ds.y[k]
  {
    var idx := KeptIndices(AboveMask(Column(ds, axis), t));
    m :| 0 <= m < |idx| && idx[m] == k;
  }
}

=== FILE: scan.dfy ===
/**
 The two nested loops of `decide_branch`, over a table of already scored
 cuts: `cuts[d][i]` is cut `i` of the rows sorted by feature `d`. The loops
 keep a running minimum that only a strictly smaller cost replaces.
 */
module Scan {
  import opened Datasets

  /** One cut: its weighted impurity, its threshold, and whether the search scores it. */
  datatype Cut = Cut(cost: real, thres: real, considered: bool)

  /**
   The loop state: `min_err`, `best_axis` and `best_thres`, plus the cut
   position the best threshold came from.
   */
  datatype Best = Best(minErr: real, axis: nat, pos: nat, thres: Threshold)

  /** The state before any cut is scored: no split, at the baseline cost. */
  function Start(base: real): Best
  {
    Best(base, 0, 0, NegInf)
  }

  /** Cut `(d, i)` exists and is scored. */
  predicate Scored(cuts: seq<seq<Cut>>, d: nat, i: nat)
  {
    d < |cuts| && i < |cuts[d]| && cuts[d][i].considered
  }

  /** Cut `(d', i')` is scored before cut `(d, i)`: features ascending, then positions. */
  predicate Earlier(d': nat, i': nat, d: nat, i: nat)
  {
    d' < d || (d' == d && i' < i)
  }

  /** Scoring one cut: only a strictly smaller cost replaces the best. */
  function Step(cuts: seq<seq<Cut>>, d: nat, i: nat, s: Best): (r: Best)
    requires d < |cuts| && i < |cuts[d]|
    ensures r.minErr <= s.minErr
    ensures r == s || (Scored(cuts, d, i) && r.minErr < s.minErr && r.minErr == cuts[d][i].cost)
  {
    var c := cuts[d][i];
    if c.considered && s.minErr > c.cost then Best(c.cost, d, i, Finite(c.thres)) else s
  }

  /** The inner loop over the cuts `i ..` of feature `d`. */
  function ScanPositions(cuts: seq<seq<Cut>>, d: nat, i: nat, s: Best): Best
    requires d < |cuts|
    decreases |cuts[d]| - i
  {
    if i >= |cuts[d]| then s
    else ScanPositions(cuts, d, i + 1, Step(cuts, d, i, s))
  }

  /** The outer loop over the features `d ..`. */
  function ScanAxes(cuts: seq<seq<Cut>>, d: nat, s: Best): Best
    requires d <= |cuts|
    decreases |cuts| - d
  {
    if d == |cuts| then s
    else ScanAxes(cuts, d + 1, ScanPositions(cuts, d, 0, s))
  }

  /**
   What the loops know once every cut before `(d, i)` is scored: the best
   cost is at most the baseline and every cut scored so far; `-inf` means
   the start state is untouched; otherwise the recorded cut was scored,
   has the best cost, and every cut scored before it cost strictly more.
   */
  ghost predicate ScanInv(cuts: seq<seq<Cut>>, base: real, s: Best, d: nat, i: nat)
  {
    && s.minErr <= base
    && (forall d': nat, i': nat :: Scored(cuts, d', i') && Earlier(d', i', d, i) ==> s.minErr <= cuts[d'][i'].cost)
    && (s.thres.NegInf? ==> s == Start(base))
    && (s.thres.Finite? ==>
          && Scored(cuts, s.axis, s.pos)
          && Earlier(s.axis, s.pos, d, i)
          && s.minErr == cuts[s.axis][s.pos].cost
          && s.minErr < base
          && s.thres.value == cuts[s.axis][s.pos].thres
          && (forall d': nat, i': nat :: Scored(cuts, d', i') && Earlier(d', i', s.axis, s.pos) ==> s.minErr < cuts[d'][i'].cost))
  }

  /** Scoring cut `(d, i)` keeps the invariant, now covering that cut. */
  lemma StepKeepsInv(cuts: seq<seq<Cut>>, base: real, d: nat, i: nat, s: Best)
    requires d < |cuts| && i < |cuts[d]|
    requires ScanInv(cuts, base, s, d, i)
    ensures ScanInv(cuts, base, Step(cuts, d, i, s), d, i + 1)
  {
  }

  /** Once every cut of feature `d` is scored, the invariant covers the next feature. */
  lemma NextAxisKeepsInv(cuts: seq<seq<Cut>>, base: real, d: nat, i: nat, s: Best)
    requires d < |cuts| && |cuts[d]| <= i
    requires ScanInv(cuts, base, s, d, i)
    ensures ScanInv(cuts, base, s, d + 1, 0)
  {
    assert forall i': nat :: Scored(cuts, d, i') ==> i' < i;
  }

  /** The inner loop over feature `d` keeps the invariant up to the next feature. */
  lemma {:induction false} ScanPositionsKeepsInv(cuts: seq<seq<Cut>>, base: real, d: nat, i: nat, s: Best)
    requires d < |cuts|
    requires ScanInv(cuts, base, s, d, i)
    ensures ScanInv(cuts, base, ScanPositions(cuts, d, i, s), d + 1, 0)
    decreases |cuts[d]| - i
  {
    if i >= |cuts[d]| {
      NextAxisKeepsInv(cuts, base, d, i, s);
    } else {
      StepKeepsInv(cuts, base, d, i, s);
      ScanPositionsKeepsInv(cuts, base, d, i + 1, Step(cuts, d, i, s));
    }
  }

  /** The outer loop keeps the invariant until every feature is scored. */
  lemma {:induction false} ScanAxesKeepsInv(cuts: seq<seq<Cut>>, base: real, d: nat, s: Best)
    requires d <= |cuts|
    requires ScanInv(cuts, base, s, d, 0)
    ensures ScanInv(cuts, base, ScanAxes(cuts, d, s), |cuts|, 0)
    decreases |cuts| - d
  {
    if d < |cuts| {
      ScanPositionsKeepsInv(cuts, base, d, 0, s);
      ScanAxesKeepsInv(cuts, base, d + 1, ScanPositions(cuts, d, 0, s));
    }
  }

  /**
   Two states that both hold the invariant over every cut are the same:
   the first cheapest scored cut, or the start state when none beats the
   baseline, is determined by the table.
   */
  lemma ScanInvUnique(cuts: seq<seq<Cut>>, base: real, s: Best, t: Best)
    requires ScanInv(cuts, base, s, |cuts|, 0) && ScanInv(cuts, base, t, |cuts|, 0)
    ensures s == t
  {
    if s.thres.Finite? && t.thres.Finite? {
      assert s.minErr == t.minErr;
      assert !Earlier(s.axis, s.pos, t.axis, t.pos) && !Earlier(t.axis, t.pos, s.axis, s.pos);
    }
  }

  /**
   The loops end in `-inf` exactly when no scored cut costs strictly less
   than the baseline; otherwise in a scored cut of minimum cost that is the
   first such cut in search order, carrying that cut's threshold.
   */
  lemma ScanFindsFirstMinimum(cuts: seq<seq<Cut>>, base: real)
    ensures var r := ScanAxes(cuts, 0, Start(base));
      && r.minErr <= base
      && (forall d: nat, i: nat :: Scored(cuts, d, i) ==> r.minErr <= cuts[d][i].cost)
      && (r.thres.NegInf? <==> forall d: nat, i: nat :: Scored(cuts, d, i) ==> base <= cuts[d][i].cost)
      && (r.thres.NegInf? ==> r == Start(base))
      && (r.thres.Finite? ==>
            && Scored(cuts, r.axis, r.pos)
            && r.minErr == cuts[r.axis][r.pos].cost
            && r.thres.value == cuts[r.axis][r.pos].thres
            && (forall d: nat, i: nat :: Scored(cuts, d, i) && Earlier(d, i, r.axis, r.pos) ==> r.minErr < cuts[d][i].cost))
  {
    ScanAxesKeepsInv(cuts, base, 0, Start(base));
  }
}

=== FILE: scenarios.dfy ===
/**
 Four rows on one feature, already in ascending order, labelled `a, a, b, b`.
 The cut between the second and third row separates the labels at cost 0,
 against 4/3 for the other two cuts and 2 for not splitting, so the search
 picks it whenever it is scored. With distinct values this is the ordinary
 run of the builder: one split and two pure leaves.
 */
module Scenarios {
  import opened Labels
  import opened Datasets
  import opened Partition
  import opened Scan
  import opened Split
  import opened DecisionTree

  /** Listing one more label that is already present changes nothing. */
  lemma DistinctSnocPresent(ys: seq<int>, x: int)
    requires x in ys
    ensures Distinct(ys + [x]) == Distinct(ys)
  {
    assert (ys + [x])[..|ys|] == ys;
  }

  /** Listing a new label adds it at the end. */
  lemma DistinctSnocNew(ys: seq<int>, x: int)
    requires x !in ys
    ensures Distinct(ys + [x]) == Distinct(ys) + [x]
  {
    assert (ys + [x])[..|ys|] == ys;
  }

  /** The squared counts of two labels. */
  lemma SquaresOfPair(ys: seq<int>, a: int, b: int)
    ensures SumSquares(ys, [a, b]) == Count(ys, a) * Count(ys, a) + Count(ys, b) * Count(ys, b)
  {
    assert [a, b][..1] == [a] && [a][..0] == [];
    var fa, fb := Count(ys, a), Count(ys, b);
    assert SumSquares(ys, [a]) == fa * fa;
    assert SumSquares(ys, [a, b]) == SumSquares(ys, [a]) + fb * fb;
  }

  /** The distinct labels of the one- and two-element lists over `a` and `b`. */
  lemma DistinctOfShortLists(a: int, b: int)
    requires a != b
    ensures Distinct([a]) == [a]
    ensures Distinct([a, b]) == [a, b]
    ensures Distinct([a, a]) == [a]
  {
    assert Distinct([a]) == [a] by {
      assert [] + [a] == [a];
      DistinctSnocNew([], a);
    }
    assert [a] + [b] == [a, b] && [a] + [a] == [a, a];
    DistinctSnocNew([a], b);
    DistinctSnocPresent([a], a);
  }

  /** The distinct labels of the sorted label prefixes and suffixes. */
  lemma TwoPairsDistinct(a: int, b: int)
    requires a != b
    ensures Distinct([a, b, b]) == [a, b]
    ensures Distinct([a, a, b]) == [a, b]
    ensures Distinct([a, a, b, b]) == [a, b]
  {
    DistinctOfShortLists(a, b);
    assert Distinct([a, b, b]) == [a, b] by {
      assert [a, b] + [b] == [a, b, b];
      DistinctSnocPresent([a, b], b);
    }
    assert Distinct([a, a, b]) == [a, b] by {
      assert [a, a] + [b] == [a, a, b];
      DistinctSnocNew([a, a], b);
    }
    assert [a, a, b] + [b] == [a, a, b, b];
    DistinctSnocPresent([a, a, b], b);
  }

  /** How often `c` occurs among two, three and four listed labels. */
  lemma CountOfPair(x: int, y: int, c: int)
    ensures Count([x, y], c) == (if x == c then 1 else 0) + (if y == c then 1 else 0)
  {
    assert [x, y][..1] == [x] && [x][..0] == [];
  }

  lemma CountOfTriple(x: int, y: int, z: int, c: int)
    ensures Count([x, y, z], c) == Count([x, y], c) + (if z == c then 1 else 0)
  {
    assert [x, y, z][..2] == [x, y];
  }

  lemma CountOfQuad(w: int, x: int, y: int, z: int, c: int)
    ensures Count([w, x, y, z], c) == Count([w, x, y], c) + (if z == c then 1 else 0)
  {
    assert [w, x, y, z][..3] == [w, x, y];
  }

  /** The counts of both labels in `a, b, b`. */
  lemma LowFirstCounts(a: int, b: int)
    requires a != b
    ensures Count([a, b, b], a) == 1 && Count([a, b, b], b) == 2
  {
    CountOfPair(a, b, a);
    CountOfPair(a, b, b);
    CountOfTriple(a, b, b, a);
    CountOfTriple(a, b, b, b);
  }

  /** The counts of both labels in `a, a, b` and `a, a, b, b`. */
  lemma TwoPairsCounts(a: int, b: int)
    requires a != b
    ensures Count([a, a, b], a) == 2 && Count([a, a, b], b) == 1
    ensures Count([a, a, b, b], a) == 2 && Count([a, a, b, b], b) == 2
  {
    CountOfPair(a, a, a);
    CountOfPair(a, a, b);
    CountOfTriple(a, a, b, a);
    CountOfTriple(a, a, b, b);
    CountOfQuad(a, a, b, b, a);
    CountOfQuad(a, a, b, b, b);
  }

  /** The squared counts: 5 for the three-label lists, 8 for all four. */
  lemma TwoPairsSquares(a: int, b: int)
    requires a != b
    ensures SumSquares([a, b, b], [a, b]) == 5
    ensures SumSquares([a, a, b], [a, b]) == 5
    ensures SumSquares([a, a, b, b], [a, b]) == 8
  {
    LowFirstCounts(a, b);
    TwoPairsCounts(a, b);
    SquaresOfPair([a, b, b], a, b);
    SquaresOfPair([a, a, b], a, b);
    SquaresOfPair([a, a, b, b], a, b);
  }

  /** The weighted impurities: 3 - 5/3 for the three-label sides, 4 - 8/4 for all four. */
  lemma TwoPairsImpurity(a: int, b: int)
    requires a != b
    ensures WeightedGini([a, b, b]) == 4.0 / 3.0
    ensures WeightedGini([a, a, b]) == 4.0 / 3.0
    ensures WeightedGini([a, a, b, b]) == 2.0
  {
    TwoPairsDistinct(a, b);
    TwoPairsSquares(a, b);
  }

  /** A list holding a single label, possibly repeated, is pure. */
  lemma PureLabels(ys: seq<int>, c: int)
    requires |ys| > 0 && forall i :: 0 <= i < |ys| ==> ys[i] == c
    ensures WeightedGini(ys) == 0.0
  {
  }

  /** Labels `a, a, b, b` in sorted order: the first cut leaves `a` against `a, b, b`. */
  lemma TwoPairsFirstCut(ds: Dataset, a: int, b: int)
    requires ds.WellFormed() && ds.dims > 0 && a != b
    requires SortedLabels(ds, 0) == [a, a, b, b]
    ensures CutCost(ds, 0, 0) == 4.0 / 3.0
  {
    var ys := SortedLabels(ds, 0);
    assert WeightedGini(ys[..1]) == 0.0 by {
      PureLabels(ys[..1], a);
    }
    assert WeightedGini(ys[1..]) == 4.0 / 3.0 by {
      assert ys[1..] == [a, b, b];
      TwoPairsImpurity(a, b);
    }
  }

  /** The middle cut leaves `a, a` against `b, b`: both sides pure. */
  lemma TwoPairsMiddleCut(ds: Dataset, a: int, b: int)
    requires ds.WellFormed() && ds.dims > 0
    requires SortedLabels(ds, 0) == [a, a, b, b]
    ensures CutCost(ds, 0, 1) == 0.0
  {
    var ys := SortedLabels(ds, 0);
    assert ys[..2] == [a, a] && ys[2..] == [b, b];
    PureLabels([a, a], a);
    PureLabels([b, b], b);
  }

  /** The last cut leaves `a, a, b` against `b`. */
  lemma TwoPairsLastCut(ds: Dataset, a: int, b: int)
    requires ds.WellFormed() && ds.dims > 0 && a != b
    requires SortedLabels(ds, 0) == [a, a, b, b]
    ensures CutCost(ds, 0, 2) == 4.0 / 3.0
  {
    var ys := SortedLabels(ds, 0);
    assert WeightedGini(ys[..3]) == 4.0 / 3.0 by {
      assert ys[..3] == [a, a, b];
      TwoPairsImpurity(a, b);
    }
    assert WeightedGini(ys[3..]) == 0.0 by {
      PureLabels(ys[3..], b);
    }
  }

  /**
   On one feature, with labels `a, a, b, b` in both row and sorted order,
   the search returns the middle cut whenever it is scored: it is free, and
   the only earlier cut costs 4/3.
   */
  lemma TwoPairsChoice(ds: Dataset, v: Variant, a: int, b: int)
    requires ds.WellFormed() && ds.dims == 1 && a != b
    requires ds.y == [a, a, b, b] && SortedLabels(ds, 0) == [a, a, b, b]
    requires Candidate(ds, v, 0, 1)
    ensures BestSplit(ds, v) == Best(0.0, 0, 1, Finite(CutThreshold(ds, 0, 1)))
  {
    TwoPairsFirstCut(ds, a, b);
    TwoPairsMiddleCut(ds, a, b);
    TwoPairsLastCut(ds, a, b);
    TwoPairsImpurity(a, b);
    FirstMinimumChosen(ds, v, 0, 1);
  }

  /** Keeping the first two of four rows. */
  lemma CompressLowerHalf<T>(xs: seq<T>)
    requires |xs| == 4
    ensures Compress(xs, [true, true, false, false]) == [xs[0], xs[1]]
  {
    assert [true, true, false, false][..3] == [true, true, false];
    assert [true, true, false][..2] == [true, true] && [true, true][..1] == [true] && [true][..0] == [];
    assert xs[..3][..2] == xs[..2] && xs[..2][..1] == xs[..1] && xs[..1][..0] == [];
  }

  /** Keeping the last two of four rows. */
  lemma CompressUpperHalf<T>(xs: seq<T>)
    requires |xs| == 4
    ensures Compress(xs, [false, false, true, true]) == [xs[2], xs[3]]
  {
    assert [false, false, true, true][..3] == [false, false, true];
    assert [false, false, true][..2] == [false, false] && [false, false][..1] == [false] && [false][..0] == [];
    assert xs[..3][..2] == xs[..2] && xs[..2][..1] == xs[..1] && xs[..1][..0] == [];
  }


  /** Of four entries, a mask keeping only the first and one keeping only the last. */
  lemma CompressEnds<T>(xs: seq<T>)
    requires |xs| == 4
    ensures Compress(xs, [true, false, false, false]) == [xs[0]]
    ensures Compress(xs, [false, false, false, true]) == [xs[3]]
  {
    assert [true, false, false, false][..3] == [true, false, false];
    assert [true, false, false][..2] == [true, false] && [true, false][..1] == [true] && [true][..0] == [];
    assert [false, false, false, true][..3] == [false, false, false];
    assert [false, false, false][..2] == [false, false] && [false, false][..1] == [false] && [false][..0] == [];
    assert xs[..3][..2] == xs[..2] && xs[..2][..1] == xs[..1] && xs[..1][..0] == [];
  }

  /** Of four entries, a mask keeping all but the first. */
  lemma CompressTail<T>(xs: seq<T>)
    requires |xs| == 4
    ensures Compress(xs, [false, true, true, true]) == [xs[1], xs[2], xs[3]]
  {
    assert [false, true, true, true][..3] == [false, true, true];
    assert [false, true, true][..2] == [false, true] && [false, true][..1] == [false] && [false][..0] == [];
    assert xs[..3][..2] == xs[..2] && xs[..2][..1] == xs[..1] && xs[..1][..0] == [];
    assert Compress(xs[..2], [false, true]) == [xs[1]];
    assert Compress(xs[..3], [false, true, true]) == [xs[1], xs[2]];
  }

  /**
   Four rows `c, c + 1, c + 2, c + 3` on one feature, labelled -1, -1, 1, 1:
   the data separates cleanly between the second and third row.
   */
  function StepExample(c: real): (ds: Dataset)
    ensures ds.WellFormed() && !Pure(ds.y)
  {
    var ds := Dataset([[c], [c + 1.0], [c + 2.0], [c + 3.0]], [-1, -1, 1, 1], 1);
    assert ds.y[0] != ds.y[2];
    ds
  }

  /** The example's feature values ascend. */
  lemma StepExampleAscending(c: real)
    ensures forall i, j :: 0 <= i <= j < 4 ==> StepExample(c).x[i][0] <= StepExample(c).x[j][0]
  {
    var ds := StepExample(c);
    assert ds.x == [[c], [c + 1.0], [c + 2.0], [c + 3.0]];
  }

  /** The example's rows are already sorted, and its middle cut lies at `c + 1.5`. */
  lemma StepExampleSorted(c: real)
    ensures SortedValues(StepExample(c), 0) == [c, c + 1.0, c + 2.0, c + 3.0]
    ensures SortedLabels(StepExample(c), 0) == [-1, -1, 1, 1]
    ensures CutThreshold(StepExample(c), 0, 1) == c + 1.5
  {
    var ds := StepExample(c);
    assert ds.x == [[c], [c + 1.0], [c + 2.0], [c + 3.0]];
    var col := Column(ds, 0);
    assert |col| == 4 && col[0] == c && col[1] == c + 1.0 && col[2] == c + 2.0 && col[3] == c + 3.0;
    assert col == [c, c + 1.0, c + 2.0, c + 3.0];
    StepExampleAscending(c);
    PresortedColumn(ds, 0);
  }

  /** Threshold `c + 1.5` sends the first two rows down and the last two up. */
  lemma StepExampleSides(c: real)
    ensures DatasBelow(StepExample(c), 0, Finite(c + 1.5)) == Dataset([[c], [c + 1.0]], [-1, -1], 1)
    ensures DatasAbove(StepExample(c), 0, Finite(c + 1.5)) == Dataset([[c + 2.0], [c + 3.0]], [1, 1], 1)
  {
    var ds := StepExample(c);
    assert BelowMask(Column(ds, 0), Finite(c + 1.5)) == [true, true, false, false];
    assert AboveMask(Column(ds, 0), Finite(c + 1.5)) == [false, false, true, true];
    CompressLowerHalf(ds.x);
    CompressLowerHalf(ds.y);
    CompressUpperHalf(ds.x);
    CompressUpperHalf(ds.y);
  }

  /** The rows differ, so neither reading of the row check stops the split. */
  lemma StepExampleRowsDiffer(c: real, v: Variant)
    ensures !AllSameRows(StepExample(c), v, 0)
  {
    var ds := StepExample(c);
    assert ds.x[1][0] != ds.x[0][0];
  }

  /** Rows on one feature that all carry label `l` become the leaf `{l}`. */
  lemma PureRowsBuild(xs: seq<seq<real>>, ys: seq<int>, l: int, v: Variant)
    requires |xs| == |ys| > 0
    requires forall k :: 0 <= k < |xs| ==> |xs[k]| == 1 && ys[k] == l
    ensures Build(Dataset(xs, ys, 1), v) == Built(Leaf(LabelSet({l})))
  {
    var ds := Dataset(xs, ys, 1);
    assert ds.WellFormed() && Pure(ds.y);
    BuildPureLeaf(ds, v);
  }

  /** The two halves of the example each carry one label and become leaves. */
  lemma StepExampleLeaves(c: real, v: Variant)
    ensures Build(Dataset([[c], [c + 1.0]], [-1, -1], 1), v) == Built(Leaf(LabelSet({-1})))
    ensures Build(Dataset([[c + 2.0], [c + 3.0]], [1, 1], 1), v) == Built(Leaf(LabelSet({1})))
  {
    var lower, upper := [[c], [c + 1.0]], [[c + 2.0], [c + 3.0]];
    assert forall k :: 0 <= k < 2 ==> |lower[k]| == 1 && [-1, -1][k] == -1;
    assert forall k :: 0 <= k < 2 ==> |upper[k]| == 1 && [1, 1][k] == 1;
    PureRowsBuild(lower, [-1, -1], -1, v);
    PureRowsBuild(upper, [1, 1], 1, v);
  }

  /**
   In either reading the example becomes one split at `c + 1.5` over a
   pure leaf `{-1}` and a pure leaf `{1}`.
   */
  lemma StepExampleBuilds(c: real, v: Variant)
    ensures Build(StepExample(c), v)
         == Built(Node(0, Finite(c + 1.5), Leaf(LabelSet({-1})), Leaf(LabelSet({1}))))
  {
    StepExampleLeaves(c, v);
    var ds := StepExample(c);
    StepExampleSorted(c);
    TwoPairsChoice(ds, v, -1, 1);
    StepExampleSides(c);
    StepExampleRowsDiffer(c, v);
    BuildSplitNode(ds, v, Leaf(LabelSet({-1})), Leaf(LabelSet({1})));
  }
}

=== FILE: sorting.dfy ===
/**
 The row order used when the split search sorts a feature column
 (`argsort`). The model fixes a stable order: rows are sorted by their key
 and rows with equal keys keep their original relative order.
 */
module Sorting {

  /** The positions `0 .. n-1` in increasing order. */
  function Range(n: nat): (r: seq<nat>)
    ensures |r| == n
    ensures forall i :: 0 <= i < n ==> r[i] == i
  {
    seq(n, i => i)
  }

  /** Every position of `order` is a row index of `keys`. */
  predicate Indexes(keys: seq<real>, order: seq<nat>)
  {
    forall i :: 0 <= i < |order| ==> order[i] < |keys|
  }

  /** Row `a` comes before row `b` by (key, row index). */
  predicate Precedes(keys: seq<real>, a: nat, b: nat)
    requires a < |keys| && b < |keys|
  {
    keys[a] < keys[b] || (keys[a] == keys[b] && a < b)
  }

  /**
   `order` lists rows strictly increasing by (key, row index): ascending by
   key, ties in original row order.
   */
  predicate StablySorted(keys: seq<real>, order: seq<nat>)
    requires Indexes(keys, order)
  {
    forall i, j :: 0 <= i < j < |order| ==> Precedes(keys, order[i], order[j])
  }

  /**
   Inserts row `k`, whose index exceeds every row already in `order`, in
   front of the first row with a strictly larger key.
   */
  function Insert(keys: seq<real>, k: nat, order: seq<nat>): (r: seq<nat>)
    requires k < |keys| && Indexes(keys, order)
    requires forall i :: 0 <= i < |order| ==> order[i] < k
    requires StablySorted(keys, order)
    ensures |r| == |order| + 1
    ensures forall x :: x in r <==> x in order || x == k
    ensures Indexes(keys, r)
    ensures StablySorted(keys, r)
  {
    if |order| == 0 then [k]
    else if keys[k] < keys[order[0]] then [k] + order
    else
      var rest := Insert(keys, k, order[1..]);
      assert forall i :: 0 <= i < |rest| ==> Precedes(keys, order[0], rest[i]) by {
        forall i | 0 <= i < |rest|
          ensures Precedes(keys, order[0], rest[i])
        {
          if rest[i] != k {
            assert rest[i] in order[1..];
          }
        }
      }
      assert order == [order[0]] + order[1..];
      [order[0]] + rest
  }

  /** Stable argsort of the first `n` rows. */
  function SortPrefix(keys: seq<real>, n: nat): (r: seq<nat>)
    requires n <= |keys|
    ensures |r| == n
    ensures Indexes(keys, r)
    ensures forall i :: 0 <= i < |r| ==> r[i] < n
    ensures forall x: nat :: x in r <==> x < n
    ensures StablySorted(keys, r)
  {
    if n == 0 then []
    else
      var r := Insert(keys, n - 1, SortPrefix(keys, n - 1));
      assert forall i :: 0 <= i < |r| ==> r[i] in r;
      r
  }

  /** Stable argsort of a whole column of keys. */
  function SortedOrder(keys: seq<real>): (r: seq<nat>)
    ensures |r| == |keys|
    ensures Indexes(keys, r)
    ensures forall x: nat :: x in r <==> x < |keys|
    ensures StablySorted(keys, r)
  {
    SortPrefix(keys, |keys|)
  }

  /** The sorted order lists every row exactly once. */
  lemma SortedOrderIsPermutation(keys: seq<real>, i: nat, j: nat)
    requires i < j < |keys|
    ensures SortedOrder(keys)[i] != SortedOrder(keys)[j]
  {
    assert Precedes(keys, SortedOrder(keys)[i], SortedOrder(keys)[j]);
  }

  /** The place where `Insert` puts the new row: the rest keep their order around it. */
  lemma {:induction false} InsertPosition(keys: seq<real>, k: nat, order: seq<nat>) returns (p: nat)
    requires k < |keys| && Indexes(keys, order)
    requires forall i :: 0 <= i < |order| ==> order[i] < k
    requires StablySorted(keys, order)
    ensures p <= |order| && Insert(keys, k, order) == order[..p] + [k] + order[p..]
  {
    if |order| == 0 || keys[k] < keys[order[0]] {
      p := 0;
    } else {
      var q := InsertPosition(keys, k, order[1..]);
      p := q + 1;
      assert order[1..][..q] == order[1..p] && order[1..][q..] == order[p..];
      assert order[..p] == [order[0]] + order[1..p];
    }
  }

  /** `xs` read in the row order `order`. */
  function Gather<T>(xs: seq<T>, order: seq<nat>): (r: seq<T>)
    requires forall i :: 0 <= i < |order| ==> order[i] < |xs|
    ensures |r| == |order|
  {
    seq(|order|, i requires 0 <= i < |order| => xs[order[i]])
  }

  /** Reading along two pieces of an order reads along each in turn. */
  lemma GatherAppend<T>(xs: seq<T>, a: seq<nat>, b: seq<nat>)
    requires forall i :: 0 <= i < |a| ==> a[i] < |xs|
    requires forall i :: 0 <= i < |b| ==> b[i] < |xs|
    ensures Gather(xs, a + b) == Gather(xs, a) + Gather(xs, b)
  {
  }

  /** Reading one more row, anywhere in the order, adds its entry to the multiset read. */
  lemma GatherInsert<T>(xs: seq<T>, front: seq<nat>, k: nat, back: seq<nat>)
    requires k < |xs|
    requires forall i :: 0 <= i < |front| ==> front[i] < |xs|
    requires forall i :: 0 <= i < |back| ==> back[i] < |xs|
    ensures multiset(Gather(xs, front + [k] + back)) == multiset(Gather(xs, front + back)) + multiset{xs[k]}
  {
    GatherAppend(xs, front, back);
    GatherAppend(xs, front, [k]);
    GatherAppend(xs, front + [k], back);
    assert Gather(xs, [k]) == [xs[k]];
  }

  /** Sorting in one more row reads one more entry. */
  lemma GatherSortStep<T>(keys: seq<real>, xs: seq<T>, n: nat)
    requires 0 < n <= |keys| == |xs|
    ensures multiset(Gather(xs, SortPrefix(keys, n)))
         == multiset(Gather(xs, SortPrefix(keys, n - 1))) + multiset{xs[n - 1]}
  {
    var order := SortPrefix(keys, n - 1);
    var p := InsertPosition(keys, n - 1, order);
    var front, back := order[..p], order[p..];
    assert order == front + back;
    assert SortPrefix(keys, n) == front + [n - 1] + back;
    GatherInsert(xs, front, n - 1, back);
  }

  /** Reading the first `n` entries in their sorted order yields the same multiset. */
  lemma {:induction false} GatherSortPrefix<T>(keys: seq<real>, xs: seq<T>, n: nat)
    requires n <= |keys| == |xs|
    ensures multiset(Gather(xs, SortPrefix(keys, n))) == multiset(xs[..n])
  {
    if n > 0 {
      GatherSortPrefix(keys, xs, n - 1);
      GatherSortStep(keys, xs, n);
      PrefixGrows(xs, n);
    } else {
      assert SortPrefix(keys, 0) == [] && xs[..0] == [];
    }
  }

  /** A prefix one longer holds one more entry. */
  lemma PrefixGrows<T>(xs: seq<T>, n: nat)
    requires 0 < n <= |xs|
    ensures multiset(xs[..n]) == multiset(xs[..n - 1]) + multiset{xs[n - 1]}
  {
    assert xs[..n] == xs[..n - 1] + [xs[n - 1]];
  }

  /** Any sequence read in the sorted order of `keys` is a rearrangement of itself. */
  lemma GatherSortedIsPermutation<T>(keys: seq<real>, xs: seq<T>)
    requires |keys| == |xs|
    ensures multiset(Gather(xs, SortedOrder(keys))) == multiset(xs)
  {
    GatherSortPrefix(keys, xs, |keys|);
    assert xs[..|xs|] == xs;
  }

  /** A row whose key is at least every key already placed goes last. */
  lemma {:induction false} InsertLast(keys: seq<real>, k: nat, order: seq<nat>)
    requires k < |keys| && Indexes(keys, order)
    requires forall i :: 0 <= i < |order| ==> order[i] < k
    requires StablySorted(keys, order)
    requires forall i :: 0 <= i < |order| ==> keys[order[i]] <= keys[k]
    ensures Insert(keys, k, order) == order + [k]
  {
    if |order| > 0 {
      InsertLast(keys, k, order[1..]);
      assert order == [order[0]] + order[1..];
    }
  }

  /** Keys already in ascending order are sorted into the order they came in. */
  lemma {:induction false} SortPrefixOfSorted(keys: seq<real>, n: nat)
    requires n <= |keys|
    requires forall i, j :: 0 <= i <= j < |keys| ==> keys[i] <= keys[j]
    ensures SortPrefix(keys, n) == Range(n)
  {
    if n > 0 {
      SortPrefixOfSorted(keys, n - 1);
      InsertLast(keys, n - 1, Range(n - 1));
      assert Range(n - 1) + [n - 1] == Range(n);
    }
  }

  /** The sort of a column already in ascending order leaves every row in place. */
  lemma SortedOrderOfSorted(keys: seq<real>)
    requires forall i, j :: 0 <= i <= j < |keys| ==> keys[i] <= keys[j]
    ensures SortedOrder(keys) == Range(|keys|)
  {
    SortPrefixOfSorted(keys, |keys|);
  }
}

=== FILE: split.dfy ===
/**
 `decide_branch`: the exhaustive search over every feature and every cut
 position of the rows sorted by that feature, keeping the first cut whose
 weighted Gini impurity is strictly below the best seen so far.
 */
module Split {
  import opened Labels
  import opened Sorting
  import opened Datasets
  import opened Scan

  /**
   Which reading of the code a definition follows: `AsWritten` is the code
   as it stands, `Corrected` repairs the defects it shows (see `Findings`).
   */
  datatype Variant = AsWritten | Corrected

  /** `X[:, d].argsort()`: the row order of the data sorted by feature `d`. */
  function SortIndex(ds: Dataset, d: nat): (order: seq<nat>)
    requires ds.WellFormed() && d < ds.dims
    ensures |order| == |ds.y|
    ensures forall i :: 0 <= i < |order| ==> order[i] < |ds.y|
    ensures forall r: nat :: r < |ds.y| ==> r in order
  {
    SortedOrder(Column(ds, d))
  }

  /** `X_sorted[:, d]`: feature `d` of the rows in sorted order, ascending. */
  function SortedValues(ds: Dataset, d: nat): (vs: seq<real>)
    requires ds.WellFormed() && d < ds.dims
    ensures |vs| == |ds.y|
    ensures forall i :: 0 <= i < |vs| ==> vs[i] == ds.x[SortIndex(ds, d)[i]][d]
    ensures forall i, j :: 0 <= i <= j < |vs| ==> vs[i] <= vs[j]
  {
    var order := SortIndex(ds, d);
    var vs := seq(|order|, i requires 0 <= i < |order| => ds.x[order[i]][d]);
    assert forall i, j :: 0 <= i < j < |vs| ==> Sorting.Precedes(Column(ds, d), order[i], order[j]);
    vs
  }

  /** `Y_sorted`: the labels of the rows sorted by feature `d`. */
  function SortedLabels(ds: Dataset, d: nat): (ys: seq<int>)
    requires ds.WellFormed() && d < ds.dims
    ensures |ys| == |ds.y|
    ensures forall i :: 0 <= i < |ys| ==> ys[i] == ds.y[SortIndex(ds, d)[i]]
  {
    var order := SortIndex(ds, d);
    seq(|order|, i requires 0 <= i < |order| => ds.y[order[i]])
  }

  /**
   `Y_sorted` rearranges `Y` and `X_sorted[:, d]` rearranges `X[:, d]`:
   sorting loses and duplicates nothing.
   */
  lemma SortedRowsPermute(ds: Dataset, d: nat)
    requires ds.WellFormed() && d < ds.dims
    ensures multiset(SortedLabels(ds, d)) == multiset(ds.y)
    ensures multiset(SortedValues(ds, d)) == multiset(Column(ds, d))
  {
    var keys := Column(ds, d);
    assert SortedLabels(ds, d) == Gather(ds.y, SortedOrder(keys));
    assert SortedValues(ds, d) == Gather(keys, SortedOrder(keys));
    GatherSortedIsPermutation(keys, ds.y);
    GatherSortedIsPermutation(keys, keys);
  }

  /**
   Rows already in ascending order of feature `d` keep their places: the
   sorted column is the column and the sorted labels are the labels.
   */
  lemma PresortedColumn(ds: Dataset, d: nat)
    requires ds.WellFormed() && d < ds.dims
    requires forall i, j :: 0 <= i <= j < |ds.y| ==> ds.x[i][d] <= ds.x[j][d]
    ensures SortedValues(ds, d) == Column(ds, d)
    ensures SortedLabels(ds, d) == ds.y
  {
    SortedOrderOfSorted(Column(ds, d));
  }

  /** `N * gini_index(Y)`: the cost of not splitting at all. */
  function Baseline(ds: Dataset): (b: real)
    ensures b == |ds.y| as real * Gini(ds.y)
  {
    WeightedGiniScales(ds.y);
    WeightedGini(ds.y)
  }

  /**
   The weighted impurity of cutting the rows sorted by feature `d` after
   position `i`: `i + 1` rows on the left, `N - i - 1` on the right. Both
   sides are non-empty, so the cost lies in [0, N), and it is zero exactly
   when both sides are pure.
   */
  function CutCost(ds: Dataset, d: nat, i: nat): (c: real)
    requires ds.WellFormed() && d < ds.dims && i + 1 < |ds.y|
    ensures 0.0 <= c < |ds.y| as real
    ensures c == 0.0 <==> Pure(SortedLabels(ds, d)[..i + 1]) && Pure(SortedLabels(ds, d)[i + 1..])
  {
    var ys := SortedLabels(ds, d);
    WeightedGini(ys[..i + 1]) + WeightedGini(ys[i + 1..])
  }

  /**
   The midpoint of the two sorted values on either side of cut `i`. It lies
   between them, and it equals a data value exactly when the two are equal.
   */
  function CutThreshold(ds: Dataset, d: nat, i: nat): (t: real)
    requires ds.WellFormed() && d < ds.dims && i + 1 < |ds.y|
    ensures SortedValues(ds, d)[i] <= t <= SortedValues(ds, d)[i + 1]
    ensures t == SortedValues(ds, d)[i] <==> SortedValues(ds, d)[i] == SortedValues(ds, d)[i + 1]
    ensures t == SortedValues(ds, d)[i + 1] <==> SortedValues(ds, d)[i] == SortedValues(ds, d)[i + 1]
  {
    var vs := SortedValues(ds, d);
    (vs[i] + vs[i + 1]) * 0.5
  }

  /**
   Cut `i` of feature `d` is scored by the search. The code scores every
   cut; the corrected search skips a cut between two equal values.
   */
  predicate Candidate(ds: Dataset, v: Variant, d: nat, i: nat)
    requires ds.WellFormed()
  {
    && d < ds.dims
    && i + 1 < |ds.y|
    && (v == AsWritten || SortedValues(ds, d)[i] < SortedValues(ds, d)[i + 1])
  }

  /** Every cut of every feature, scored: the table the two loops walk through. */
  function Cuts(ds: Dataset, v: Variant): (cuts: seq<seq<Cut>>)
    requires ds.WellFormed()
    ensures |cuts| == ds.dims
    ensures forall d :: 0 <= d < ds.dims ==> |cuts[d]| == (if |ds.y| == 0 then 0 else |ds.y| - 1)
  {
    var m := if |ds.y| == 0 then 0 else |ds.y| - 1;
    seq(ds.dims, d requires 0 <= d < ds.dims =>
      seq(m, i requires 0 <= i < m =>
        Cut(CutCost(ds, d, i), CutThreshold(ds, d, i), Candidate(ds, v, d, i))))
  }

  /** Entry `(d, i)` of the table. */
  lemma CutsAt(ds: Dataset, v: Variant, d: nat, i: nat)
    requires ds.WellFormed() && d < ds.dims && i + 1 < |ds.y|
    ensures Cuts(ds, v)[d][i] == Cut(CutCost(ds, d, i), CutThreshold(ds, d, i), Candidate(ds, v, d, i))
  {
  }

  /** The whole table: its scored entries are the candidates, each with its cost and midpoint. */
  lemma CutsMeaning(ds: Dataset, v: Variant)
    requires ds.WellFormed()
    ensures forall d: nat, i: nat :: Scored(Cuts(ds, v), d, i) <==> Candidate(ds, v, d, i)
    ensures forall d: nat, i: nat :: Candidate(ds, v, d, i) ==>
      Cuts(ds, v)[d][i].cost == CutCost(ds, d, i) && Cuts(ds, v)[d][i].thres == CutThreshold(ds, d, i)
  {
    forall d: nat, i: nat | d < ds.dims && i + 1 < |ds.y| {
      CutsAt(ds, v, d, i);
    }
  }

  /**
   The state `decide_branch` ends in (it returns `axis` and `thres`): `-inf`
   exactly when no scored cut costs strictly less than `N * gini(Y)`;
   otherwise a scored cut whose cost is the minimum over all scored cuts,
   the first such in search order, with the midpoint of its two sorted
   values as threshold.
   */
  function BestSplit(ds: Dataset, v: Variant): (r: Best)
    requires ds.WellFormed()
    ensures r.minErr <= Baseline(ds)
    ensures forall d: nat, i: nat :: Candidate(ds, v, d, i) ==> r.minErr <= CutCost(ds, d, i)
    ensures r.thres.NegInf? <==> forall d: nat, i: nat :: Candidate(ds, v, d, i) ==> Baseline(ds) <= CutCost(ds, d, i)
    ensures r.thres.NegInf? ==> r.axis == 0 && r.minErr == Baseline(ds)
    ensures r.thres.Finite? ==>
      && Candidate(ds, v, r.axis, r.pos)
      && r.minErr == CutCost(ds, r.axis, r.pos)
      && r.thres.value == CutThreshold(ds, r.axis, r.pos)
      && (forall d: nat, i: nat :: Candidate(ds, v, d, i) && Earlier(d, i, r.axis, r.pos) ==> r.minErr < CutCost(ds, d, i))
    ensures ds.dims > 0 ==> r.axis < ds.dims
    ensures r.thres.Finite? ==>
      var vs := SortedValues(ds, r.axis);
      vs[0] <= vs[r.pos] <= r.thres.value <= vs[r.pos + 1] <= vs[|ds.y| - 1]
    ensures r.thres.Finite? && v == Corrected ==>
      var vs := SortedValues(ds, r.axis);
      vs[r.pos] < r.thres.value < vs[r.pos + 1]
  {
    var cuts := Cuts(ds, v);
    CutsMeaning(ds, v);
    ScanFindsFirstMinimum(cuts, Baseline(ds));
    ScanAxes(cuts, 0, Start(Baseline(ds)))
  }

  /**
   A cut that is the only one scored and beats not splitting is the one
   chosen, with its cost and its midpoint.
   */
  lemma OnlyCandidateChosen(ds: Dataset, v: Variant, d: nat, i: nat)
    requires ds.WellFormed() && Candidate(ds, v, d, i)
    requires forall e: nat, j: nat :: Candidate(ds, v, e, j) ==> e == d && j == i
    requires CutCost(ds, d, i) < Baseline(ds)
    ensures BestSplit(ds, v) == Best(CutCost(ds, d, i), d, i, Finite(CutThreshold(ds, d, i)))
  {
    FirstMinimumChosen(ds, v, d, i);
  }

  /**
   When the first cut of the first feature is scored and leaves both sides
   pure while the labels are mixed, nothing can beat it and the search
   keeps it.
   */
  lemma FreeFirstCutChosen(ds: Dataset, v: Variant)
    requires ds.WellFormed() && Candidate(ds, v, 0, 0)
    requires CutCost(ds, 0, 0) == 0.0 && Baseline(ds) > 0.0
    ensures BestSplit(ds, v) == Best(0.0, 0, 0, Finite(CutThreshold(ds, 0, 0)))
  {
    var r := BestSplit(ds, v);
    assert r.thres.Finite?;
    assert r.axis == 0 && r.pos == 0 by {
      assert Earlier(0, 0, r.axis, r.pos) || (r.axis == 0 && r.pos == 0);
    }
  }

  /**
   A scored cut that beats not splitting, costs no more than any scored
   cut and strictly less than every scored cut before it is the one
   chosen, with its cost and its midpoint.
   */
  lemma FirstMinimumChosen(ds: Dataset, v: Variant, d: nat, i: nat)
    requires ds.WellFormed() && Candidate(ds, v, d, i)
    requires CutCost(ds, d, i) < Baseline(ds)
    requires forall e: nat, j: nat :: Candidate(ds, v, e, j) ==> CutCost(ds, d, i) <= CutCost(ds, e, j)
    requires forall e: nat, j: nat :: Candidate(ds, v, e, j) && Earlier(e, j, d, i) ==> CutCost(ds, d, i) < CutCost(ds, e, j)
    ensures BestSplit(ds, v) == Best(CutCost(ds, d, i), d, i, Finite(CutThreshold(ds, d, i)))
  {
    var r := BestSplit(ds, v);
    assert r.thres.Finite?;
    assert r.minErr == CutCost(ds, d, i);
    assert !Earlier(r.axis, r.pos, d, i) && !Earlier(d, i, r.axis, r.pos);
    assert r.axis == d && r.pos == i;
  }

  /**
   One turn of the inner loop of `decide_branch`, for the cut's cost,
   midpoint and flag: it is a `Step` of the scan over the table.
   */
  lemma ScoreCut(ds: Dataset, v: Variant, d: nat, i: nat, s: Best, err: real, t: real, scored: bool, next: Best)
    requires ds.WellFormed() && d < ds.dims && i + 1 < |ds.y|
    requires err == CutCost(ds, d, i) && t == CutThreshold(ds, d, i) && scored == Candidate(ds, v, d, i)
    requires next == if scored && s.minErr > err then Best(err, d, i, Finite(t)) else s
    ensures next == Step(Cuts(ds, v), d, i, s)
  {
    CutsAt(ds, v, d, i);
  }

  /** One turn of the inner loop keeps the running-minimum invariant, now covering cut `i`. */
  lemma ScoreCutKeepsInv(ds: Dataset, v: Variant, d: nat, i: nat, s: Best, err: real, t: real, scored: bool, next: Best)
    requires ds.WellFormed() && d < ds.dims && i + 1 < |ds.y|
    requires err == CutCost(ds, d, i) && t == CutThreshold(ds, d, i) && scored == Candidate(ds, v, d, i)
    requires next == if scored && s.minErr > err then Best(err, d, i, Finite(t)) else s
    requires ScanInv(Cuts(ds, v), Baseline(ds), s, d, i)
    ensures ScanInv(Cuts(ds, v), Baseline(ds), next, d, i + 1)
    ensures next.minErr <= s.minErr
  {
    ScoreCut(ds, v, d, i, s, err, t, scored, next);
    StepKeepsInv(Cuts(ds, v), Baseline(ds), d, i, s);
  }

  /**
   The inner loop of `decide_branch` for feature `d`: score every cut of the
   rows sorted by that feature, keeping the first strict improvement. From
   a state that holds the running-minimum invariant for the features before
   `d`, it ends in one that holds it for every cut of `d` as well, and the
   best cost never rises.
   */
  method ScoreAxis(ds: Dataset, v: Variant, d: nat, s: Best) returns (r: Best)
    requires ds.WellFormed() && d < ds.dims
    requires ScanInv(Cuts(ds, v), Baseline(ds), s, d, 0)
    ensures ScanInv(Cuts(ds, v), Baseline(ds), r, d + 1, 0)
    ensures r.minErr <= s.minErr
  {
    ghost var cuts := Cuts(ds, v);
    r := s;
    var i := 0;
    while i + 1 < |ds.y|
      invariant i <= |cuts[d]|
      invariant ScanInv(cuts, Baseline(ds), r, d, i)
      invariant r.minErr <= s.minErr
    {
      var err := CutCost(ds, d, i);
      var t := CutThreshold(ds, d, i);
      var scored := Candidate(ds, v, d, i);
      var next := r;
      if scored && r.minErr > err {
        next := Best(err, d, i, Finite(t));
      }
      ScoreCutKeepsInv(ds, v, d, i, r, err, t, scored, next);
      r, i := next, i + 1;
    }
    NextAxisKeepsInv(cuts, Baseline(ds), d, i, r);
  }

  /**
   `decide_branch`: the features in order, each through the inner loop,
   starting from no split at the cost `N * gini_index(Y)`.
   */
  method DecideBranch(ds: Dataset, v: Variant) returns (axis: nat, thres: Threshold)
    requires ds.WellFormed()
    ensures axis == BestSplit(ds, v).axis && thres == BestSplit(ds, v).thres
    ensures ds.dims > 0 ==> axis < ds.dims
    ensures thres.NegInf? <==> forall d: nat, i: nat :: Candidate(ds, v, d, i) ==> Baseline(ds) <= CutCost(ds, d, i)
    ensures thres.NegInf? ==> axis == 0
  {
    var best := Best(WeightedGini(ds.y), 0, 0, NegInf);
    ghost var cuts := Cuts(ds, v);
    var d := 0;
    while d < ds.dims
      invariant d <= ds.dims
      invariant ScanInv(cuts, Baseline(ds), best, d, 0)
    {
      best := ScoreAxis(ds, v, d, best);
      d := d + 1;
    }
    ScanAxesKeepsInv(cuts, Baseline(ds), 0, Start(Baseline(ds)));
    ScanInvUnique(cuts, Baseline(ds), best, BestSplit(ds, v));
    axis, thres := best.axis, best.thres;
  }
}

=== FILE: tree.dfy ===
/**
 `build_dt`: the recursive tree builder. A node is a leaf once its labels
 agree, or once `all_same_rows` reports that no feature can separate the
 rows; otherwise it splits on `decide_branch` and recurses on the rows
 strictly below and strictly above the threshold, lower side first.
 */
module DecisionTree {
  import opened Labels
  import opened Datasets
  import opened Partition
  import opened Split

  /**
   What a leaf holds: the code stores `set(Y)` at a pure leaf and a single
   label from `majority_item` at a leaf whose rows cannot be separated.
   */
  datatype LeafLabel = LabelSet(labels: set<int>) | Majority(item: int)

  /** `DT_Node`: a leaf, or a split on feature `axis` at `thres`. */
  datatype Tree =
    | Leaf(payload: LeafLabel)
    | Node(axis: nat, thres: Threshold, left: Tree, right: Tree)

  /**
   The outcome of `build_dt`: a tree, or the assertion failure raised when
   some call receives no rows.
   */
  datatype BuildResult = Built(tree: Tree) | EmptyInput

  /** Number of split levels on the longest path. */
  function Height(t: Tree): nat
  {
    match t
    case Leaf(_) => 0
    case Node(_, _, l, r) => 1 + (if Height(l) < Height(r) then Height(r) else Height(l))
  }

  /** Number of leaves. */
  function LeafCount(t: Tree): nat
  {
    match t
    case Leaf(_) => 1
    case Node(_, _, l, r) => LeafCount(l) + LeafCount(r)
  }

  /** Every split is on one of the `dims` features at a finite threshold. */
  predicate SplitsWithin(t: Tree, dims: nat)
  {
    match t
    case Leaf(_) => true
    case Node(a, th, l, r) => a < dims && th.Finite? && SplitsWithin(l, dims) && SplitsWithin(r, dims)
  }

  /** No leaf holds a single majority label. */
  predicate NoMajorityLeaf(t: Tree)
  {
    match t
    case Leaf(p) => p.LabelSet?
    case Node(_, _, l, r) => NoMajorityLeaf(l) && NoMajorityLeaf(r)
  }

  /**
   The test on line 93 of `all_same_rows` for feature `d`. As written it
   compares the set of the column's values with the integer `1`, which is
   never equal, so the test never passes. Corrected, it asks whether the
   column holds exactly one distinct value.
   */
  predicate ColumnHasOneValue(ds: Dataset, v: Variant, d: nat)
    requires ds.WellFormed() && d < ds.dims
  {
    match v
    case AsWritten => false
    case Corrected => |ds.y| > 0 && forall r :: 0 <= r < |ds.y| ==> ds.x[r][d] == ds.x[0][d]
  }

  /**
   `all_same_rows` over the features `d ..`. As written it holds only when
   there are no features left to check; corrected, it holds exactly when
   the data is non-empty and every row agrees with the first on every
   remaining feature (or no feature remains).
   */
  function AllSameRows(ds: Dataset, v: Variant, d: nat): (r: bool)
    requires ds.WellFormed() && d <= ds.dims
    ensures v == AsWritten ==> (r <==> d == ds.dims)
    ensures v == Corrected && d < ds.dims ==>
      (r <==> |ds.y| > 0 && forall k, e :: 0 <= k < |ds.y| && d <= e < ds.dims ==> ds.x[k][e] == ds.x[0][e])
    decreases ds.dims - d
  {
    if d == ds.dims then true
    else if !ColumnHasOneValue(ds, v, d) then false
    else AllSameRows(ds, v, d + 1)
  }

  /**
   `build_dt`. An empty input is the failed assertion; a failure in either
   recursive call fails the whole build, and the lower side is built
   first, so an empty lower side fails before the upper side is looked at.
   A built tree has at most `N` leaves, height below `N`, and splits only
   on features of the data at finite thresholds; as written, with at least
   one feature, it never reaches the majority-label leaf.
   */
  function Build(ds: Dataset, v: Variant): (r: BuildResult)
    requires ds.WellFormed()
    ensures |ds.y| == 0 ==> r == EmptyInput
    ensures r.Built? ==> Height(r.tree) < |ds.y| && LeafCount(r.tree) <= |ds.y|
    ensures r.Built? ==> SplitsWithin(r.tree, ds.dims)
    ensures r.Built? && v == AsWritten && ds.dims > 0 ==> NoMajorityLeaf(r.tree)
    decreases |ds.y|, 1
  {
    if |ds.y| == 0 then EmptyInput
    else if |Distinct(ds.y)| == 1 then Built(Leaf(LabelSet(set l | l in ds.y)))
    else if AllSameRows(ds, v, 0) then Built(Leaf(Majority(MajorityItem(ds.y))))
    else SplitNode(ds, v)
  }

  /**
   The splitting branch of `build_dt`: the node at the split
   `decide_branch` returns, over the trees built from the rows below and
   above it, lower side first.
   */
  function SplitNode(ds: Dataset, v: Variant): (r: BuildResult)
    requires ds.WellFormed() && |ds.y| > 0 && ds.dims > 0
    ensures r.Built? ==> Height(r.tree) < |ds.y| && LeafCount(r.tree) <= |ds.y|
    ensures r.Built? ==> SplitsWithin(r.tree, ds.dims)
    ensures r.Built? && v == AsWritten ==> NoMajorityLeaf(r.tree)
    decreases |ds.y|, 0
  {
    var s := BestSplit(ds, v);
    var below := DatasBelow(ds, s.axis, s.thres);
    var above := DatasAbove(ds, s.axis, s.thres);
    LowerSideSmaller(ds, v);
    var left := Build(below, v);
    if left.EmptyInput? then EmptyInput
    else
      AboveSmallerWhenBelowNonEmpty(ds, s.axis, s.thres);
      var right := Build(above, v);
      if right.EmptyInput? then EmptyInput
      else
        PartitionCounts(ds, s.axis, s.thres);
        NodeSize(s.axis, s.thres, left.tree, right.tree, |below.y|, |above.y|);
        Built(Node(s.axis, s.thres, left.tree, right.tree))
  }

  /** A node over two children built from non-empty sides of `nl` and `nr` rows. */
  lemma NodeSize(a: nat, th: Threshold, l: Tree, r: Tree, nl: nat, nr: nat)
    requires 0 < nl && 0 < nr
    requires Height(l) < nl && LeafCount(l) <= nl
    requires Height(r) < nr && LeafCount(r) <= nr
    ensures Height(Node(a, th, l, r)) < nl + nr
    ensures LeafCount(Node(a, th, l, r)) <= nl + nr
  {
  }

  /**
   Labels that are mixed over rows the row check does not call identical
   make a node at the chosen split over the two sides' subtrees, once both
   of those build.
   */
  lemma BuildSplitNode(ds: Dataset, v: Variant, lt: Tree, rt: Tree)
    requires ds.WellFormed() && |ds.y| > 0 && !Pure(ds.y) && !AllSameRows(ds, v, 0)
    requires var s := BestSplit(ds, v);
      && Build(DatasBelow(ds, s.axis, s.thres), v) == Built(lt)
      && Build(DatasAbove(ds, s.axis, s.thres), v) == Built(rt)
    ensures Build(ds, v) == Built(Node(BestSplit(ds, v).axis, BestSplit(ds, v).thres, lt, rt))
  {
    DistinctSingletonIffPure(ds.y);
  }

  /**
   When `build_dt` splits, the lower side has fewer rows than the node:
   the row just after the cut is not below a finite threshold, and nothing
   is below `-inf`.
   */
  lemma LowerSideSmaller(ds: Dataset, v: Variant)
    requires ds.WellFormed() && |ds.y| > 0 && ds.dims > 0
    ensures BestSplit(ds, v).axis < ds.dims
    ensures |DatasBelow(ds, BestSplit(ds, v).axis, BestSplit(ds, v).thres).y| < |ds.y|
  {
    var s := BestSplit(ds, v);
    if s.thres.Finite? {
      BelowSmaller(ds, s.axis, s.thres, SortIndex(ds, s.axis)[s.pos + 1]);
    } else {
      NothingBelowNegInf(ds, s.axis);
    }
  }

  /** A non-empty pure label list becomes a leaf holding its one label as a set. */
  lemma BuildPureLeaf(ds: Dataset, v: Variant)
    requires ds.WellFormed() && |ds.y| > 0 && Pure(ds.y)
    ensures Build(ds, v) == Built(Leaf(LabelSet({ds.y[0]})))
  {
    DistinctSingletonIffPure(ds.y);
    assert (set l | l in ds.y) == {ds.y[0]};
  }

  /** Every row agrees with the first on every feature. */
  predicate IdenticalRows(ds: Dataset)
  {
    forall k :: 0 <= k < |ds.x| ==> ds.x[k] == ds.x[0]
  }

  /**
   With the corrected `all_same_rows`, rows that agree on every feature but
   carry different labels become a leaf holding their majority label.
   */
  lemma BuildMajorityLeaf(ds: Dataset)
    requires ds.WellFormed() && |ds.y| > 0 && !Pure(ds.y)
    requires IdenticalRows(ds)
    ensures Build(ds, Corrected) == Built(Leaf(Majority(MajorityItem(ds.y))))
  {
    DistinctSingletonIffPure(ds.y);
    if ds.dims > 0 {
      assert forall k, e :: 0 <= k < |ds.y| && 0 <= e < ds.dims ==> ds.x[k][e] == ds.x[0][e];
      assert AllSameRows(ds, Corrected, 0);
    }
  }

  /**
   A split whose best threshold is `-inf` sends no row to the lower side,
   so the build fails, whichever reading of the code is used.
   */
  lemma SplitAtNegInfFails(ds: Dataset, v: Variant)
    requires ds.WellFormed() && |ds.y| > 0 && !Pure(ds.y) && !AllSameRows(ds, v, 0)
    requires BestSplit(ds, v).thres.NegInf?
    ensures Build(ds, v) == EmptyInput
  {
    DistinctSingletonIffPure(ds.y);
    LowerSideSmaller(ds, v);
    NothingBelowNegInf(ds, BestSplit(ds, v).axis);
  }

  /**
   In the corrected search a finite threshold falls strictly between two
   neighbouring sorted values, so no row sits on it.
   */
  lemma RowOffCorrectedThreshold(ds: Dataset, k: nat)
    requires ds.WellFormed() && ds.dims > 0 && k < |ds.y|
    requires BestSplit(ds, Corrected).thres.Finite?
    ensures BestSplit(ds, Corrected).axis < ds.dims
    ensures var s := BestSplit(ds, Corrected); var row := ds.x[k];
      |row| == ds.dims && (IsBelow(row[s.axis], s.thres) || IsAbove(row[s.axis], s.thres))
  {
    var s := BestSplit(ds, Corrected);
    var vs := SortedValues(ds, s.axis);
    var j := SortedPosition(ds, s.axis, k);
    assert Candidate(ds, Corrected, s.axis, s.pos);
    var t := CutThreshold(ds, s.axis, s.pos);
    assert vs[s.pos] < t < vs[s.pos + 1];
    if j <= s.pos {
      assert vs[j] <= vs[s.pos];
      assert IsBelow(ds.x[k][s.axis], Finite(t));
    } else {
      assert vs[s.pos + 1] <= vs[j];
      assert IsAbove(ds.x[k][s.axis], Finite(t));
    }
  }

  /**
   In the corrected search a finite threshold sends every row to exactly
   one side, and both sides are non-empty.
   */
  lemma CorrectedSplitKeepsEveryRow(ds: Dataset)
    requires ds.WellFormed() && ds.dims > 0
    requires BestSplit(ds, Corrected).thres.Finite?
    ensures var s := BestSplit(ds, Corrected);
      && s.axis < ds.dims
      && 0 < |DatasBelow(ds, s.axis, s.thres).y|
      && 0 < |DatasAbove(ds, s.axis, s.thres).y|
      && |DatasBelow(ds, s.axis, s.thres).y| + |DatasAbove(ds, s.axis, s.thres).y| == |ds.y|
  {
    var s := BestSplit(ds, Corrected);
    var order := SortIndex(ds, s.axis);
    var col := Column(ds, s.axis);
    StrictThresholdSplits(ds, s.axis, s.thres.value, order[s.pos], order[s.pos + 1]);
    forall k | 0 <= k < |col|
      ensures !AtMask(col, s.thres)[k]
    {
      RowOffCorrectedThreshold(ds, k);
    }
    CountTrueNone(AtMask(col, s.thres));
    PartitionCounts(ds, s.axis, s.thres);
  }

  /** The place of row `k` in the rows sorted by feature `d`. */
  lemma SortedPosition(ds: Dataset, d: nat, k: nat) returns (j: nat)
    requires ds.WellFormed() && d < ds.dims && k < |ds.y|
    ensures j < |ds.y| && SortIndex(ds, d)[j] == k
    ensures SortedValues(ds, d)[j] == ds.x[k][d]
  {
    var order := SortIndex(ds, d);
    assert k in order;
    j :| 0 <= j < |order| && order[j] == k;
  }

  /**
   A training row lands on the leaf its own feature values lead to: lower
   side when below the split threshold, upper side when above, and nowhere
   when it sits exactly on a threshold. It fits when that leaf's label set
   is exactly its label, or when the leaf is a majority leaf.
   */
  predicate Fits(t: Tree, row: seq<real>, y: int)
  {
    match t
    case Leaf(LabelSet(ls)) => ls == {y}
    case Leaf(Majority(_)) => true
    case Node(a, th, l, r) =>
      a < |row| && (if IsBelow(row[a], th) then Fits(l, row, y) else IsAbove(row[a], th) && Fits(r, row, y))
  }

  /**
   A built tree that is not a leaf is the node of `decide_branch` over the
   trees built from the two sides.
   */
  lemma BuiltNode(ds: Dataset, v: Variant)
    requires ds.WellFormed() && Build(ds, v).Built? && !Build(ds, v).tree.Leaf?
    ensures var s := BestSplit(ds, v);
      && s.axis < ds.dims
      && 0 < |DatasBelow(ds, s.axis, s.thres).y| < |ds.y|
      && 0 < |DatasAbove(ds, s.axis, s.thres).y| < |ds.y|
      && Build(DatasBelow(ds, s.axis, s.thres), v).Built?
      && Build(DatasAbove(ds, s.axis, s.thres), v).Built?
      && Build(ds, v).tree == Node(s.axis, s.thres,
                                   Build(DatasBelow(ds, s.axis, s.thres), v).tree,
                                   Build(DatasAbove(ds, s.axis, s.thres), v).tree)
  {
    LowerSideSmaller(ds, v);
    var s := BestSplit(ds, v);
    AboveSmallerWhenBelowNonEmpty(ds, s.axis, s.thres);
  }

  /**
   A tree the corrected builder produces sends every training row down
   to a leaf that fits its label: no training row is dropped on a
   threshold, and every label-set leaf a row reaches holds exactly that
   row's label.
   */
  lemma {:induction false} FitsTrainingData(ds: Dataset, k: nat)
    requires ds.WellFormed() && k < |ds.y| && Build(ds, Corrected).Built?
    ensures Fits(Build(ds, Corrected).tree, ds.x[k], ds.y[k])
    decreases |ds.y|
  {
    var t := Build(ds, Corrected).tree;
    if t.Leaf? {
      if |Distinct(ds.y)| == 1 {
        DistinctSingletonIffPure(ds.y);
        BuildPureLeaf(ds, Corrected);
      }
    } else {
      BuiltNode(ds, Corrected);
      var s := BestSplit(ds, Corrected);
      var below := DatasBelow(ds, s.axis, s.thres);
      var above := DatasAbove(ds, s.axis, s.thres);
      RowOffCorrectedThreshold(ds, k);
      if IsBelow(ds.x[k][s.axis], s.thres) {
        var m := RowKeptBelow(ds, s.axis, s.thres, k);
        FitsTrainingData(below, m);
      } else {
        var m := RowKeptAbove(ds, s.axis, s.thres, k);
        FitsTrainingData(above, m);
      }
    }
  }
}
